=== FILE: README.md ===
# OSI pipeline model (webeng.py)

webeng.py simulates the seven OSI layers. `OSIModel.transmit` hands a message
down through seven stages:

1. Application wraps it in `{"HTTP": "GET", "Data": …}`.
2. Presentation writes the hex of its pickle.
3. Session, Transport, Network and Data Link each wrap the text in a
   two-member JSON object, with a header first and the text under `"Payload"`.
4. Physical writes the text's UTF-8 bytes as one big-endian number in binary.

`OSIModel.receive` undoes the stages from the bottom up.

This project models each stage's `send` and `receive` as pure Dafny
functions, and the two pipeline methods as functions over the wire string.
The socket is left out:
- `send` returns the digits it would write.
- `receive` takes the digits it would read.

Every library routine the stages call is modelled concretely rather than
assumed:
- `str.encode`/`bytes.decode` as UTF-8 (`Utf8`);
- `int.from_bytes`/`int.to_bytes` (`Bytes`);
- `bin` and `int(s, 2)` (`Physical`);
- `bytes.hex`/`bytes.fromhex` (`Hex`);
- `json.dumps`/`json.loads` for flat objects of scalars (`Json`);
- `pickle.dumps`/`pickle.loads` for a `str` under the default protocol 4 (`Pickle`).

The library behaviour follows Python 3.12, where `pickle.DEFAULT_PROTOCOL` is 4 and `pickle.HIGHEST_PROTOCOL` is 5. A Python whose default protocol differs writes a different second byte in every pickle, and so a different wire.

Failures are `Result` values. An `Error` names the Python exception the
code would raise: `TypeError`, `KeyError`, `ValueError`,
`UnicodeDecodeError`, `UnpicklingError`, `EOFError` or `JSONDecodeError`.
The one exception is `Unsupported`. It marks input outside what this model
parses. Python may accept such input (a float, a nested object, a pickled
list), or reject it with its own error. Examples of the second kind are the
JSON text `[` (JSONDecodeError), a pickle whose STOP finds an empty stack,
and an unknown pickle opcode (UnpicklingError).

Modules and files:
- `results.dfy`: `Result`, `Option` and `Error`.
- `bytes.dfy`: powers and big- and little-endian byte strings.
- `utf8.dfy`: UTF-8 encoding and strict decoding.
- `hex.dfy`: base16 text.
- `json.dfy`: the JSON writer with `ensure_ascii` escaping and `", "`/`": "` separators, and the parser.
- `pickle.dfy`: the protocol-4 byte layout of a pickled string, and its reader.
- `physical.dfy`: the Physical stage.
- `layers.dfy`: the JSON envelope shared by five stages, and the Data Link, Network, Transport, Session, Presentation and Application stages.
- `osi.dfy`: `OSIModel.transmit` and `OSIModel.receive`.

Behaviour of the code worth noting:
- **No padding.** The Physical stage writes `bin(n)[2:]` with no zero
  padding. A wire therefore need not be a whole number of bytes.
  - Every transmitted wire has `8k - 1` digits, because the Data Link text
    starts with `{` (0x7B, seven significant bits). See `Osi.BraceWireLength`.
  - The receiver accepts any digit count and sizes its bytes as
    `(len + 7) // 8`. See `Physical.ShortWireAccepted`.
- **No length check.** Nothing rejects a wire whose length is not a multiple
  of eight.
- **Stage order is not checked.** Session, Transport, Network and Data Link
  read only `"Payload"`, so each unwraps what any of the others wrapped. See
  `Osi.PayloadStagesInterchangeable`.

## Model

| member | source | states |
|---|---|---|
| Physical.BinaryDigits | webeng.py:9 | `bin(n)[2:]` is a binary numeral whose value is n. It is `"0"` exactly for zero, and otherwise starts with `1`. |
| Physical.Send | webeng.py:8-12 | The wire is a binary numeral whose value is the big-endian number of the text's UTF-8 bytes. It has no leading zero: it is `"0"` or starts with `1`. It starts with `1` when the text is non-empty and does not start with NUL. |
| Physical.Receive | webeng.py:14-17 | Anything but binary digits raises the `int(s, 2)` ValueError. On binary digits the only other error is UnicodeDecodeError. A success yields text whose UTF-8 form has `ceil(len/8)` bytes and spells the wire's value. |
| Physical.ReceiveSpelled | webeng.py:14-17 | Conversely, any text whose UTF-8 form has `ceil(len/8)` bytes and spells the wire's value is what the binary wire is received as. This includes wires with leading zero digits. |
| Physical.DigitsValue | webeng.py:17 | The value `int(s, 2)` gives a string of binary digits is below 2^len. `Physical.BinaryDigits` and `Physical.BinaryDigitsOfValue` pin it down as the inverse of `bin`. |
| Physical.FitsInWidth | webeng.py:16-17 | The value of `len` binary digits always fits in `(len + 7) // 8` bytes, so `to_bytes` never raises OverflowError. |
| Physical.SendLength | webeng.py:9-17 | For a non-empty text not starting with NUL, the wire has between `8k-7` and `8k` digits (k = UTF-8 length). The receiver's `(len + 7) // 8` therefore recovers exactly k. |
| Physical.RoundTrip | webeng.py:8-17 | receive(send(s)) == s for every non-empty s whose first character is not NUL. |
| Physical.SendReceive | webeng.py:8-17 | send(receive(w)) == w for every wire that is received without error and starts with `1`. |
| Physical.EmptyNotRecovered | webeng.py:9-17 | The empty text is sent as `"0"` and comes back as a single NUL, so it does not survive the round trip. |
| Physical.LeadingNulLost | webeng.py:9-17 | A leading NUL leaves the wire unchanged and is dropped on receipt. |
| Physical.ShortWireAccepted | webeng.py:14-17 | `"A"` is sent as seven digits, and those seven digits are received back as `"A"`. |
| Physical.BinaryDigitsOfValue | webeng.py:9-17 | Digits that start with `1` are the `bin` digits of their own value. |
| Bytes.BigEndian | webeng.py:17 | `to_bytes(width, 'big')` has exactly `width` bytes and, when the number fits, reads back as that number. |
| Bytes.BigEndianValue | webeng.py:9 | `int.from_bytes(b, 'big')` is below 256^len(b). `Bytes.BigEndianOfValue` and `Bytes.BigEndian` make it the inverse of `to_bytes`. |
| Bytes.BigEndianOfValue | webeng.py:9-17 | `to_bytes` of `from_bytes(b)` at b's own length gives back b. |
| Bytes.BigEndianLeadingZero | webeng.py:9 | A leading zero byte does not change the big-endian value. |
| Utf8.Encode | webeng.py:9 | The UTF-8 form is one to four bytes per character. Its first byte is 0 exactly when the first character is NUL. |
| Utf8.Decode | webeng.py:17 | A successful decode never yields more characters than bytes. |
| Utf8.DecodeEncode | webeng.py:9-17 | Decoding the UTF-8 encoding of any text gives the text back. |
| Utf8.EncodeDecode | webeng.py:17 | Bytes that decode without error are the encoding of what they decode to. So there is one UTF-8 form per text. |
| Json.Escape | webeng.py:23 | The escaped form of a string is printable ASCII, at most 12 characters per character (a surrogate pair of `\uXXXX`). |
| Json.Dumps | webeng.py:22-23 | `json.dumps` yields non-empty printable ASCII. An object's text starts with `{`. |
| Json.Loads | webeng.py:26 | `json.loads` of text that is empty or only white space raises "Expecting value". A document is an object exactly when its text starts, after white space, with `{`. `Json.LoadsDumps` gives it its meaning as the inverse of `json.dumps`. |
| Json.NumberWithoutFraction | webeng.py:26 | `"1."` is "Extra data", because a `.` without a digit is not part of the number. `"1.5"` is a float, which this model does not cover. |
| Json.LoadsDumps | webeng.py:22-27 | `json.loads(json.dumps(v)) == v` for every scalar and every flat object of scalars. |
| Json.ParseMembersText | webeng.py:22-27 | The members of an object, written with `", "` and `": "`, parse back as the same members, in order, followed by the rest of the text. |
| Json.Lookup | webeng.py:27 | A key is missing exactly when no member has it. A found value is that of the key's last occurrence. |
| Json.Field | webeng.py:27 | Indexing a non-object raises TypeError. A missing key raises KeyError, and a present key succeeds. The value found is that of the key's last occurrence, as in the dict `json.loads` builds. |
| Envelope.Wrap | webeng.py:22-23 | The text of a header-and-body object starts with `{` and parses back as exactly that two-member object. |
| Envelope.Open | webeng.py:26-27 | Indexing a non-string raises TypeError, and a JSON error is passed on. A non-object document raises TypeError. A document without the key raises KeyError. An object that has the key succeeds, and the value found is the object's (last) member under that key. |
| Envelope.OpenWrap | webeng.py:20-27 | Reading the body key of a wrapped record gives back the body, whatever the header. |
| Envelope.HeaderKept | webeng.py:22-27 | The header's value can be read back from a wrapped record under its own key. |
| DataLink.Send | webeng.py:20-23 | The frame is JSON text that parses as `{"MAC": mac, "Payload": data}`. |
| DataLink.Receive | webeng.py:25-27 | Text that is not JSON passes on the JSON error, and a non-object raises TypeError. A frame without `"Payload"` raises KeyError. A frame with `"Payload"` succeeds, and the result is that member's value. |
| DataLink.RoundTrip | webeng.py:20-27 | receive(send(d, mac)) gives back d for every MAC address. |
| Network.Send | webeng.py:30-33 | The packet parses as `{"IP": ip, "Payload": data}`. |
| Network.Receive | webeng.py:35-37 | A non-string input raises TypeError. Text that is not JSON passes on the JSON error, and a non-object raises TypeError. A packet without `"Payload"` raises KeyError. A packet with `"Payload"` succeeds, and the result is that member's value. |
| Network.RoundTrip | webeng.py:30-37 | receive(send(d, ip)) gives back d for every IP address. |
| Transport.Send | webeng.py:40-43 | The segment parses as `{"Sequence": sequence, "Payload": data}`. |
| Transport.Receive | webeng.py:45-47 | A non-string input raises TypeError. Text that is not JSON passes on the JSON error, and a non-object raises TypeError. A segment without `"Payload"` raises KeyError. A segment with `"Payload"` succeeds, and the result is that member's value. |
| Transport.RoundTrip | webeng.py:40-47 | receive(send(d, seq)) gives back d for every sequence number (Python's own limit on printing integers is left out, see below). |
| Session.Send | webeng.py:50-53 | The session text parses as `{"SessionID": id, "Payload": data}`. |
| Session.Receive | webeng.py:55-57 | A non-string input raises TypeError. Text that is not JSON passes on the JSON error, and a non-object raises TypeError. A session text without `"Payload"` raises KeyError. A session text with `"Payload"` succeeds, and the result is that member's value. |
| Session.RoundTrip | webeng.py:50-57 | receive(send(d, id)) gives back d for every session id (Python's own limit on printing integers is left out, see below). |
| Hex.Encode | webeng.py:62 | `bytes.hex()` writes two lower-case hex digits per byte. |
| Hex.Decode | webeng.py:66 | `bytes.fromhex` yields at most one byte per two characters. Its only error is the non-hex ValueError. |
| Hex.DecodeEncode | webeng.py:62-66 | `bytes.fromhex(b.hex()) == b`. |
| Pickle.StringHeader | webeng.py:62 | The string opcode is SHORT_BINUNICODE, BINUNICODE or BINUNICODE8. Its length field is 1, 4 or 8 bytes, chosen by the byte count. |
| Pickle.Dumps | webeng.py:62 | A pickled string starts with PROTO 4 and ends with STOP. It is at least six bytes longer than the UTF-8 text. It is framed exactly when that text is under 64 KiB. |
| Pickle.Loads | webeng.py:66 | A successful load starts with PROTO at a supported protocol. Its UTF-8 text is no longer than the stream. |
| Pickle.LoadsShort | webeng.py:66 | Data that ends where an opcode belongs raises EOFError. Data that ends inside PROTO's argument raises the truncation UnpicklingError. |
| Pickle.LoadsDumps | webeng.py:62-66 | `pickle.loads(pickle.dumps(s)) == s` for every string whose UTF-8 form is under 2^64 bytes. |
| Presentation.Send | webeng.py:61-63 | The encoded text is lower-case hex, twice the pickle's length, and `fromhex` reads it back as the pickle. |
| Presentation.Receive | webeng.py:65-66 | A non-string input raises TypeError, and a non-hex input raises the `fromhex` ValueError. A result comes only from valid hex. |
| Presentation.RoundTrip | webeng.py:60-66 | receive(send(d)) == d for every string whose UTF-8 form is under 2^64 bytes. |
| Application.Send | webeng.py:70-72 | The request parses as `{"HTTP": "GET", "Data": data}`. It is at most `12·|data| + 148` characters long. |
| Application.Receive | webeng.py:74-76 | Text that is not JSON passes on the JSON error, and a non-object raises TypeError. A request without `"Data"` raises KeyError. A request with `"Data"` succeeds, and the result is that member's value. |
| Application.RoundTrip | webeng.py:69-76 | receive(send(d)) gives back d. |
| Osi.Transmit | webeng.py:89-96 | The wire is a binary numeral that starts with `1`, and its length is 7 mod 8. |
| Osi.Receive | webeng.py:98-106 | Anything but binary digits fails with the `int(s, 2)` ValueError. A success needs the Physical stage to succeed. |
| Osi.BraceWireLength | webeng.py:95-96 | Text that starts with `{` goes on the wire as exactly `8k - 1` digits, k being its UTF-8 length. |
| Osi.RoundTrip | webeng.py:89-106 | receive(transmit(m)) == m for every message shorter than 2^58 characters. |
| Osi.PayloadStagesInterchangeable | webeng.py:25-57 | Network, Transport, Session and Data Link each unwrap what another of these stages wrapped. |

## Left out

- Sockets are left out:
  - `conn.sendall`, `conn.recv(4096)` and the byte decode of what arrives;
  - `server()`, `client()`, `input` and `print` (webeng.py:109-136).
  The Physical stage returns or takes the digit string itself.
- Osi.Receive: takes the whole wire. The source reads one `recv(4096)`, which returns at most 4096 digits, possibly fewer. In the source, a frame of more than 512 bytes therefore arrives cut short. Osi.RoundTrip does not model this limit.
- Osi.Transmit: returns the wire. The source's `transmit` returns nothing and only writes the wire to the socket.
- Physical.Receive: accepts only a non-empty run of `0`/`1`. `int(s, 2)` also allows surrounding white space (Unicode white space included), a sign, a `0b` prefix, single underscores between digits, and any Unicode decimal digit of value 0 or 1 (so `int('١٠', 2) == 2`). Those wires are reported as the ValueError here.
- Json.Dumps and the parser cover `null`, booleans, integers, strings and flat objects of these. The layers only produce those.
  - Arrays, floats, `NaN`/`Infinity`, nested objects and lone surrogate escapes are reported as an `Unsupported` error by the parser, not parsed. This includes malformed text that merely starts like one of them, such as `[` or `NaNx`, which Python rejects with JSONDecodeError.
  - Non-string keys are not modelled.
  - `json.loads` on `bytes` input is not modelled.
- DataLink.Send, Network.Send, Transport.Send and Session.Send take the header as a string (MAC, IP) or an integer (sequence, session id). The source accepts any JSON-serialisable value.
- Transport.Send: prints any integer sequence number. Python 3.11 and later refuse to convert an integer of more than 4300 digits to text, so `json.dumps` raises ValueError there, and `json.loads` likewise refuses such a number. The source only passes 1. Transport.RoundTrip inherits this.
- Session.Send: prints any integer session id, with the same 4300-digit limit of Python left out. The source only passes 1001. Session.RoundTrip inherits this.
- Json.Dumps: the same integer-digit limit of Python is left out of `json.dumps` and `json.loads` in general, and so of Json.LoadsDumps.
- Application.Send: takes a `str` message, which is what `input()` supplies. Other Python values are not modelled.
- Pickle.Dumps: covers `str` under protocol 4 only.
- Pickle.Loads: reads only a stream of one string. A stream without PROTO, or with any other opcode, is reported as `Unsupported`, whether Python would accept it or raise its own error.
- Pickle.Loads: a FRAME or BINUNICODE8 length of 2^63 or more that runs past the data is reported as the truncation UnpicklingError. Python raises a ValueError or OverflowError for such a length instead.
  - Python's check that reads stay inside the announced frame is not modelled.
  - The `surrogatepass` error handler is not modelled. Dafny strings hold no lone surrogates.
- Pickle.LoadsDumps: requires the UTF-8 form to be under 2^64 bytes, the largest length BINUNICODE8's 8-byte field can hold. Presentation.RoundTrip inherits the same bound.
- Osi.RoundTrip: requires the message to be shorter than 2^58 characters. The pipeline pickles one string, the Application request, and `Application.Send` bounds its length by `12·|m| + 148` characters, each at most 4 UTF-8 bytes; this bound keeps that pickle under the 2^64 bytes `Pickle.LoadsDumps` needs.
- Osi.Receive: returns a `Json.Scalar`. The source's JSON value can also be a list or a nested object, which this JSON model does not parse.

=== FILE: bytes.dfy ===
/** Bytes and the two fixed-width integer layouts the pipeline uses:
    big-endian (int.from_bytes / int.to_bytes in the Physical stage) and
    little-endian (the length fields struct.pack writes inside a pickle). */
module Bytes {

  type byte = b: int | 0 <= b < 256

  function Pow(base: nat, e: nat): (r: nat)
    ensures base > 0 ==> r > 0
  {
    if e == 0 then 1 else base * Pow(base, e - 1)
  }

  lemma {:induction false} PowAdd(base: nat, m: nat, n: nat)
    ensures Pow(base, m + n) == Pow(base, m) * Pow(base, n)
    decreases n
  {
    if n > 0 {
      PowAdd(base, m, n - 1);
      calc {
        Pow(base, m + n);
        base * Pow(base, m + n - 1);
        base * (Pow(base, m) * Pow(base, n - 1));
        Pow(base, m) * (base * Pow(base, n - 1));
      }
    }
  }

  /** A byte is eight bits: 256^k == 2^(8k). */
  lemma {:induction false} Pow256(k: nat)
    ensures Pow(256, k) == Pow(2, 8 * k)
  {
    if k > 0 {
      Pow256(k - 1);
      assert Pow(2, 8) == 256;
      PowAdd(2, 8, 8 * (k - 1));
    }
  }

  /** Powers of two are strictly increasing. */
  lemma {:induction false} Pow2Increasing(a: nat, c: nat)
    requires a < c
    ensures Pow(2, a) < Pow(2, c)
    decreases c - a
  {
    if a + 1 < c {
      Pow2Increasing(a, c - 1);
    }
  }

  /** The exponent of a power of two is determined by a two-sided bound. */
  lemma Pow2Order(a: nat, c: nat)
    requires Pow(2, a) < Pow(2, c)
    ensures a < c
  {
    if c <= a {
      if c < a {
        Pow2Increasing(c, a);
      }
    }
  }

  /** A number bracketed by consecutive powers of two fixes the exponent. */
  lemma Pow2Exact(len: nat, e: nat, v: nat)
    requires len >= 1
    requires Pow(2, e) <= v < Pow(2, e + 1)
    requires Pow(2, len - 1) <= v < Pow(2, len)
    ensures len == e + 1
  {
    Pow2Order(e, len);
    Pow2Order(len - 1, e + 1);
  }

  // ---------------------------------------------------------------------
  // Big-endian

  /** int.from_bytes(bs, 'big'). */
  function BigEndianValue(bs: seq<byte>): (n: nat)
    ensures n < Pow(256, |bs|)
    decreases |bs|
  {
    if bs == [] then 0 else BigEndianValue(bs[..|bs| - 1]) * 256 + bs[|bs| - 1]
  }

  /** The low `width` bytes of n, most significant first; n.to_bytes(width, 'big')
      when n fits in `width` bytes. */
  function BigEndian(n: nat, width: nat): (bs: seq<byte>)
    ensures |bs| == width
    ensures n < Pow(256, width) ==> BigEndianValue(bs) == n
  {
    if width == 0 then []
    else
      var init := BigEndian(n / 256, width - 1);
      var bs := init + [n % 256];
      assert bs[..|bs| - 1] == init;
      bs
  }

  /** Every byte string is the fixed-width big-endian form of its own value. */
  lemma {:induction false} BigEndianOfValue(bs: seq<byte>)
    ensures BigEndian(BigEndianValue(bs), |bs|) == bs
    decreases |bs|
  {
    if bs != [] {
      var init := bs[..|bs| - 1];
      var v := BigEndianValue(init);
      var last := bs[|bs| - 1];
      var n := v * 256 + last;
      assert n == BigEndianValue(bs);
      BigEndianOfValue(init);
      DivMod256(v, last);
      assert BigEndian(n, |bs|) == BigEndian(n / 256, |bs| - 1) + [n % 256];
      assert init + [last] == bs;
    }
  }

  lemma DivMod256(v: nat, b: byte)
    ensures (v * 256 + b) / 256 == v && (v * 256 + b) % 256 == b
  {
  }

  /** The leading byte pins down the value's range:
      bs[0] * 256^(k-1) <= value < (bs[0] + 1) * 256^(k-1). */
  lemma {:induction false} BigEndianLeadingByte(bs: seq<byte>)
    requires |bs| > 0
    ensures bs[0] * Pow(256, |bs| - 1) <= BigEndianValue(bs) < (bs[0] + 1) * Pow(256, |bs| - 1)
    decreases |bs|
  {
    if |bs| > 1 {
      var init := bs[..|bs| - 1];
      BigEndianLeadingByte(init);
      assert init[0] == bs[0];
      var p := Pow(256, |init| - 1);
      assert Pow(256, |bs| - 1) == 256 * p;
      ScaleBounds(bs[0], BigEndianValue(init), p, bs[|bs| - 1]);
    }
  }

  lemma ScaleBounds(a: int, v: int, p: int, low: int)
    requires a * p <= v < (a + 1) * p
    requires 0 <= low < 256
    ensures a * (256 * p) <= v * 256 + low < (a + 1) * (256 * p)
  {
    assert v * 256 >= (a * p) * 256;
    assert v <= (a + 1) * p - 1;
    assert v * 256 <= ((a + 1) * p - 1) * 256;
  }

  /** A zero byte in front does not change the value. */
  lemma {:induction false} BigEndianLeadingZero(bs: seq<byte>)
    ensures BigEndianValue([0] + bs) == BigEndianValue(bs)
    decreases |bs|
  {
    if bs != [] {
      var init := bs[..|bs| - 1];
      BigEndianLeadingZero(init);
      assert ([0] + bs)[..|bs|] == [0] + init;
    }
  }

  // ---------------------------------------------------------------------
  // Little-endian

  /** int.from_bytes(bs, 'little'): how the unpickler reads a length field. */
  function LittleEndianValue(bs: seq<byte>): (n: nat)
    ensures n < Pow(256, |bs|)
  {
    if bs == [] then 0 else bs[0] + 256 * LittleEndianValue(bs[1..])
  }

  /** The low `width` bytes of n, least significant first: struct.pack('<B'),
      ('<I') and ('<Q') for widths 1, 4 and 8, when n fits. */
  function LittleEndian(n: nat, width: nat): (bs: seq<byte>)
    ensures |bs| == width
    ensures n < Pow(256, width) ==> LittleEndianValue(bs) == n
  {
    if width == 0 then []
    else
      var bs := [n % 256] + LittleEndian(n / 256, width - 1);
      assert bs[1..] == LittleEndian(n / 256, width - 1);
      bs
  }
}

=== FILE: hex.dfy ===
/** Base16 text for bytes, as bytes.hex() writes it (two lower-case digits
    per byte, the high nibble first, the "base16" alphabet of section 8 of
    RFC 4648 in lower case) and as bytes.fromhex() reads it back. */
module Hex {
  import opened Bytes
  import opened Results

  const Digits: string := "0123456789abcdef"

  /** The error bytes.fromhex() raises on anything but hex pairs and white space. */
  const NotHex: Error := ValueError("non-hexadecimal number found in fromhex() arg")

  /** The lower-case hex digit for a nibble. */
  function Digit(v: nat): (c: char)
    requires v < 16
    ensures IsLowerHexDigit(c)
    ensures DigitValue(c) == Some(v)
  {
    Digits[v]
  }

  predicate IsLowerHexDigit(c: char) {
    '0' <= c <= '9' || 'a' <= c <= 'f'
  }

  /** The value of a hex digit of either case, None for any other character. */
  function DigitValue(c: char): (r: Option<nat>)
    ensures r.Some? ==> r.value < 16
  {
    if '0' <= c <= '9' then Some(c as int - '0' as int)
    else if 'a' <= c <= 'f' then Some(c as int - 'a' as int + 10)
    else if 'A' <= c <= 'F' then Some(c as int - 'A' as int + 10)
    else None
  }

  /** The ASCII white space bytes.fromhex() skips between byte pairs. */
  predicate IsSpace(c: char) {
    c == ' ' || c == '\t' || c == '\n' || c == '\r' || c as int == 0x0B || c as int == 0x0C
  }

  /** bytes.hex(). */
  function Encode(bs: seq<byte>): (s: string)
    ensures |s| == 2 * |bs|
    ensures forall i :: 0 <= i < |s| ==> IsLowerHexDigit(s[i])
  {
    if bs == [] then "" else [Digit(bs[0] / 16), Digit(bs[0] % 16)] + Encode(bs[1..])
  }

  /** bytes.fromhex(s): pairs of hex digits of either case, with white space
      allowed before each pair; anything else is a ValueError. */
  function Decode(s: string): (r: Result<seq<byte>>)
    ensures r.Ok? ==> 2 * |r.value| <= |s|
    ensures r.Err? ==> r.error == NotHex
  {
    if s == [] then Ok([])
    else if IsSpace(s[0]) then Decode(s[1..])
    else if |s| < 2 || DigitValue(s[0]).None? || DigitValue(s[1]).None? then Result<seq<byte>>.Err(NotHex)
    else
      var rest :- Decode(s[2..]);
      Ok([DigitValue(s[0]).value * 16 + DigitValue(s[1]).value] + rest)
  }

  /** bytes.fromhex(b.hex()) == b. */
  lemma {:induction false} DecodeEncode(bs: seq<byte>)
    ensures Decode(Encode(bs)) == Ok(bs)
  {
    if bs != [] {
      var s := Encode(bs);
      var hi, lo := bs[0] / 16, bs[0] % 16;
      assert s[0] == Digit(hi) && s[1] == Digit(lo);
      assert s[2..] == Encode(bs[1..]);
      DecodeEncode(bs[1..]);
      Nibbles(bs[0]);
      DecodeDigits(s, hi, lo, bs[1..]);
      assert [bs[0]] + bs[1..] == bs;
    }
  }

  /** Two hex digits read back as one byte in front of what follows them. */
  lemma DecodeDigits(s: string, hi: nat, lo: nat, rest: seq<byte>)
    requires |s| >= 2 && IsLowerHexDigit(s[0]) && DigitValue(s[0]) == Some(hi) && DigitValue(s[1]) == Some(lo)
    requires Decode(s[2..]) == Ok(rest)
    ensures hi * 16 + lo < 256 && Decode(s) == Ok([hi * 16 + lo] + rest)
  {
  }

  lemma Nibbles(b: byte)
    ensures b / 16 * 16 + b % 16 == b
  {
  }
}

=== FILE: json.dfy ===
/** The JSON text (RFC 8259) the header stages exchange: json.dumps with its
    defaults (ensure_ascii, ", " and ": " separators) and json.loads for
    documents that are a scalar or a record whose fields are scalars. */
module Json {
  import opened Results
  import Hex

  datatype Scalar = Null | Bool(b: bool) | Int(i: int) | Str(s: string)

  datatype Member = Member(key: string, value: Scalar)

  /** A JSON document: a scalar, or an object given by its members in text order. */
  datatype Value = Atom(x: Scalar) | Object(members: seq<Member>)

  // =====================================================================
  // json.dumps

  predicate IsPrintable(s: string) {
    forall i :: 0 <= i < |s| ==> ' ' <= s[i] <= '~'
  }

  const Backspace: char := 8 as char
  const FormFeed: char := 12 as char

  /** Four lower-case hex digits, as a \uXXXX escape writes them. */
  function Hex4(n: nat): (r: string)
    requires n < 0x10000
    ensures |r| == 4 && IsPrintable(r)
  {
    var q1 := n / 16;
    var q2 := q1 / 16;
    [Hex.Digit(q2 / 16), Hex.Digit(q2 % 16), Hex.Digit(q1 % 16), Hex.Digit(n % 16)]
  }

  /** Characters json.dumps writes as themselves: printable ASCII other than
      the quote and the backslash. */
  predicate IsPlain(c: char) {
    ' ' <= c <= '~' && c != '"' && c != '\\'
  }

  /** How one character appears inside a JSON string literal when only
      printable ASCII may be written. */
  function EscapeChar(c: char): (r: string)
    ensures 1 <= |r| <= 12 && IsPrintable(r)
  {
    if IsPlain(c) then [c] else ['\\'] + EscapeTail(c)
  }

  /** What follows the backslash when c has to be escaped. */
  function EscapeTail(c: char): (r: string)
    requires !IsPlain(c)
    ensures 1 <= |r| <= 11 && IsPrintable(r)
  {
    if c == '"' then "\""
    else if c == '\\' then "\\"
    else if c == '\n' then "n"
    else if c == '\r' then "r"
    else if c == '\t' then "t"
    else if c == Backspace then "b"
    else if c == FormFeed then "f"
    else if (c as int) < 0x10000 then ['u'] + Hex4(c as int)
    else
      // beyond the Basic Multilingual Plane: a UTF-16 surrogate pair
      ['u'] + Hex4(HighSurrogate(c)) + ['\\', 'u'] + Hex4(LowSurrogate(c))
  }

  /** The UTF-16 surrogate pair that stands for a character beyond the Basic
      Multilingual Plane. */
  function HighSurrogate(c: char): (u: nat)
    requires (c as int) >= 0x10000
    ensures 0xD800 <= u < 0xDC00
  {
    0xD800 + (c as int - 0x10000) / 0x400
  }

  function LowSurrogate(c: char): (u: nat)
    requires (c as int) >= 0x10000
    ensures 0xDC00 <= u < 0xE000
    ensures 0x10000 + (HighSurrogate(c) - 0xD800) * 0x400 + (u - 0xDC00) == c as int
  {
    0xDC00 + (c as int - 0x10000) % 0x400
  }

  function Escape(s: string): (r: string)
    ensures |r| <= 12 * |s| && IsPrintable(r)
  {
    if s == [] then "" else EscapeChar(s[0]) + Escape(s[1..])
  }

  /** A string literal. */
  function Quote(s: string): (r: string)
    ensures |r| >= 2 && r[0] == '"' && IsPrintable(r)
  {
    "\"" + Escape(s) + "\""
  }

  predicate IsDigit(c: char) {
    '0' <= c <= '9'
  }

  /** The decimal digits of n, without leading zeros. */
  function NatText(n: nat): (r: string)
    ensures r != [] && forall i :: 0 <= i < |r| ==> IsDigit(r[i])
    ensures r[0] == '0' ==> n == 0 && |r| == 1
    ensures DecimalValue(r) == n
  {
    if n < 10 then [('0' as int + n) as char]
    else
      var r := NatText(n / 10) + [('0' as int + n % 10) as char];
      assert r[..|r| - 1] == NatText(n / 10);
      r
  }

  function IntText(i: int): (r: string)
    ensures r != [] && IsPrintable(r)
  {
    if i < 0 then "-" + NatText(-i) else NatText(i)
  }

  function ScalarText(x: Scalar): (r: string)
    ensures r != [] && IsPrintable(r)
    ensures r[0] != ' '
  {
    match x
    case Null => "null"
    case Bool(b) => if b then "true" else "false"
    case Int(i) => IntText(i)
    case Str(s) => Quote(s)
  }

  /** The members of an object, "key": value, separated by ", ". */
  function MembersText(ms: seq<Member>): (r: string)
    ensures IsPrintable(r)
  {
    if ms == [] then ""
    else
      var first := Quote(ms[0].key) + ": " + ScalarText(ms[0].value);
      PrintableConcat(Quote(ms[0].key), ": ");
      PrintableConcat(Quote(ms[0].key) + ": ", ScalarText(ms[0].value));
      if |ms| == 1 then first
      else
        PrintableConcat(first, ", ");
        PrintableConcat(first + ", ", MembersText(ms[1..]));
        first + ", " + MembersText(ms[1..])
  }

  lemma PrintableConcat(a: string, b: string)
    requires IsPrintable(a) && IsPrintable(b)
    ensures IsPrintable(a + b)
  {
  }

  /** json.dumps(v): printable ASCII only, an object always in braces. */
  function Dumps(v: Value): (r: string)
    ensures r != [] && IsPrintable(r)
    ensures v.Object? ==> r[0] == '{'
  {
    match v
    case Atom(x) => ScalarText(x)
    case Object(ms) => "{" + MembersText(ms) + "}"
  }

  // =====================================================================
  // json.loads
  //
  // Each parser takes the text still to be read and returns what it read
  // together with the rest of the text.

  predicate IsWhitespace(c: char) {
    c == ' ' || c == '\t' || c == '\n' || c == '\r'
  }

  function SkipWhitespace(s: string): (r: string)
    ensures |r| <= |s|
    ensures r == [] || !IsWhitespace(r[0])
  {
    if s != [] && IsWhitespace(s[0]) then SkipWhitespace(s[1..]) else s
  }

  /** The value of four hex digits of either case at the start of s. */
  function ParseHex4(s: string): (r: Option<nat>)
    ensures r.Some? ==> |s| >= 4 && r.value < 0x10000
  {
    if |s| < 4 then None
    else match (Hex.DigitValue(s[0]), Hex.DigitValue(s[1]), Hex.DigitValue(s[2]), Hex.DigitValue(s[3]))
      case (Some(a), Some(b), Some(c), Some(d)) => Some(((a * 16 + b) * 16 + c) * 16 + d)
      case _ => None
  }

  /** The escape sequence that follows a backslash inside a string literal. */
  function ParseEscape(s: string): (r: Result<(char, string)>)
    ensures r.Ok? ==> |r.value.1| < |s|
  {
    if s == [] then Err(JsonDecodeError("Unterminated string"))
    else if s[0] == '"' then Ok(('"', s[1..]))
    else if s[0] == '\\' then Ok(('\\', s[1..]))
    else if s[0] == '/' then Ok(('/', s[1..]))
    else if s[0] == 'b' then Ok((Backspace, s[1..]))
    else if s[0] == 'f' then Ok((FormFeed, s[1..]))
    else if s[0] == 'n' then Ok(('\n', s[1..]))
    else if s[0] == 'r' then Ok(('\r', s[1..]))
    else if s[0] == 't' then Ok(('\t', s[1..]))
    else if s[0] != 'u' then Err(JsonDecodeError("Invalid \\escape"))
    else match ParseHex4(s[1..])
      case None => Err(JsonDecodeError("Invalid \\uXXXX escape"))
      case Some(u) =>
        if 0xD800 <= u < 0xDC00 && |s| >= 7 && s[5] == '\\' && s[6] == 'u' then
          match ParseHex4(s[7..])
          case None => Err(JsonDecodeError("Invalid \\uXXXX escape"))
          case Some(u2) =>
            if 0xDC00 <= u2 < 0xE000 then
              Ok(((0x10000 + (u - 0xD800) * 0x400 + (u2 - 0xDC00)) as char, s[11..]))
            else Err(Unsupported("lone surrogate"))
        else if 0xD800 <= u < 0xE000 then Err(Unsupported("lone surrogate"))
        else Ok((u as char, s[5..]))
  }

  /** The rest of a string literal after its opening quote: its characters,
      and the text after the closing quote. */
  function ParseStringBody(s: string): (r: Result<(string, string)>)
    ensures r.Ok? ==> |r.value.1| < |s|
    decreases |s|
  {
    if s == [] then Err(JsonDecodeError("Unterminated string"))
    else if s[0] == '"' then Ok(([], s[1..]))
    else if s[0] == '\\' then
      var e :- ParseEscape(s[1..]);
      var more :- ParseStringBody(e.1);
      Ok(([e.0] + more.0, more.1))
    else if s[0] < ' ' then Err(JsonDecodeError("Invalid control character"))
    else
      var more :- ParseStringBody(s[1..]);
      Ok(([s[0]] + more.0, more.1))
  }

  /** How many decimal digits s starts with. */
  function DigitSpan(s: string): (n: nat)
    ensures n <= |s|
    ensures forall i :: 0 <= i < n ==> IsDigit(s[i])
    ensures n == |s| || !IsDigit(s[n])
  {
    if s != [] && IsDigit(s[0]) then 1 + DigitSpan(s[1..]) else 0
  }

  function DecimalValue(ds: string): nat
    requires forall i :: 0 <= i < |ds| ==> IsDigit(ds[i])
  {
    if ds == [] then 0
    else
      assert IsDigit(ds[|ds| - 1]);
      10 * DecimalValue(ds[..|ds| - 1]) + (ds[|ds| - 1] as int - '0' as int)
  }

  /** What must follow an integer part to make the number a float: a fraction
      with at least one digit, or an exponent with at least one digit. A '.' or
      'e' without its digit is not part of the number at all. */
  predicate IsFloatTail(rest: string) {
    (|rest| >= 2 && rest[0] == '.' && IsDigit(rest[1]))
    || (|rest| >= 2 && (rest[0] == 'e' || rest[0] == 'E') && IsDigit(rest[1]))
    || (|rest| >= 3 && (rest[0] == 'e' || rest[0] == 'E') && (rest[1] == '+' || rest[1] == '-') && IsDigit(rest[2]))
  }

  /** The integer part of a number: "0" or a digit string without a leading zero.
      A fraction or exponent would make the number a float. */
  function ParseNat(s: string): (r: Result<(nat, string)>)
    ensures r.Ok? ==> |r.value.1| < |s|
  {
    var span := DigitSpan(s);
    if span == 0 then Err(JsonDecodeError("Expecting value"))
    else
      var len := if s[0] == '0' then 1 else span;
      var rest := s[len..];
      if IsFloatTail(rest) then Err(Unsupported("float"))
      else Ok((DecimalValue(s[..len]), rest))
  }

  function ParseInt(s: string): (r: Result<(int, string)>)
    requires s != []
    ensures r.Ok? ==> |r.value.1| < |s|
  {
    if s[0] == '-' then
      if StartsWith(s, "-Infinity") then Err(Unsupported("float"))
      else
        var n :- ParseNat(s[1..]);
        var negative: int := 0 - (n.0 as int);
        Ok((negative, n.1))
    else
      var n :- ParseNat(s);
      Ok((n.0, n.1))
  }

  predicate StartsWith(s: string, word: string) {
    |word| <= |s| && s[..|word|] == word
  }

  /** A scalar: string, number, null, true or false. */
  function ParseScalar(s: string): (r: Result<(Scalar, string)>)
    ensures r.Ok? ==> |r.value.1| < |s|
  {
    if s == [] then Err(JsonDecodeError("Expecting value"))
    else if s[0] == '"' then
      var p :- ParseStringBody(s[1..]);
      Ok((Str(p.0), p.1))
    else if s[0] == '-' || IsDigit(s[0]) then
      var p :- ParseInt(s);
      Ok((Int(p.0), p.1))
    else if StartsWith(s, "null") then Ok((Null, s[4..]))
    else if StartsWith(s, "true") then Ok((Bool(true), s[4..]))
    else if StartsWith(s, "false") then Ok((Bool(false), s[5..]))
    else if s[0] == '{' then Err(Unsupported("nested object"))
    else if s[0] == '[' then Err(Unsupported("array"))
    else if StartsWith(s, "NaN") || StartsWith(s, "Infinity") then Err(Unsupported("float"))
    else Err(JsonDecodeError("Expecting value"))
  }

  /** One "key": value member, and the text after it with white space skipped. */
  function ParseMember(s: string): (r: Result<(Member, string)>)
    ensures r.Ok? ==> |r.value.1| < |s|
  {
    if s == [] || s[0] != '"' then Err(JsonDecodeError("Expecting property name enclosed in double quotes"))
    else
      var key :- ParseStringBody(s[1..]);
      var colon := SkipWhitespace(key.1);
      if colon == [] || colon[0] != ':' then Err(JsonDecodeError("Expecting ':' delimiter"))
      else
        var value :- ParseScalar(SkipWhitespace(colon[1..]));
        Ok((Member(key.0, value.0), SkipWhitespace(value.1)))
  }

  /** The members of an object, starting at the first key's opening quote and
      ending after the closing brace. */
  function ParseMembers(s: string): (r: Result<(seq<Member>, string)>)
    ensures r.Ok? ==> |r.value.1| < |s|
    decreases |s|
  {
    var m :- ParseMember(s);
    var after := m.1;
    if after != [] && after[0] == '}' then Ok(([m.0], after[1..]))
    else if after != [] && after[0] == ',' then
      var more :- ParseMembers(SkipWhitespace(after[1..]));
      Ok(([m.0] + more.0, more.1))
    else Err(JsonDecodeError("Expecting ',' delimiter"))
  }

  /** An object after its opening brace. */
  function ParseObject(s: string): (r: Result<(Value, string)>)
    ensures r.Ok? ==> |r.value.1| < |s| && r.value.0.Object?
  {
    var t := SkipWhitespace(s);
    if t != [] && t[0] == '}' then Ok((Object([]), t[1..]))
    else
      var p :- ParseMembers(t);
      Ok((Object(p.0), p.1))
  }

  function ParseValue(s: string): (r: Result<(Value, string)>)
    ensures r.Ok? ==> |r.value.1| < |s|
    ensures r.Ok? ==> (r.value.0.Object? <==> s != [] && s[0] == '{')
  {
    if s != [] && s[0] == '{' then ParseObject(s[1..])
    else
      var p :- ParseScalar(s);
      Ok((Atom(p.0), p.1))
  }

  /** json.loads(s): one value, with white space around it and nothing else. */
  function Loads(s: string): (r: Result<Value>)
    ensures SkipWhitespace(s) == [] ==> r == Err(JsonDecodeError("Expecting value"))
    ensures r.Ok? ==> SkipWhitespace(s) != [] && (r.value.Object? <==> SkipWhitespace(s)[0] == '{')
  {
    var p :- ParseValue(SkipWhitespace(s));
    if SkipWhitespace(p.1) != [] then Err(JsonDecodeError("Extra data")) else Ok(p.0)
  }

  // =====================================================================
  // Reading a field: obj[key] on the dict json.loads returns

  /** The value a dict built from these members holds for key: the last
      member with that key wins. */
  function Lookup(ms: seq<Member>, key: string): (r: Option<Scalar>)
    ensures r.None? <==> forall i :: 0 <= i < |ms| ==> ms[i].key != key
    ensures r.Some? ==> exists i :: 0 <= i < |ms| && ms[i] == Member(key, r.value)
                                    && forall j :: i < j < |ms| ==> ms[j].key != key
  {
    if ms == [] then None
    else if ms[|ms| - 1].key == key then Some(ms[|ms| - 1].value)
    else Lookup(ms[..|ms| - 1], key)
  }

  /** v[key]: a KeyError when the object lacks the key, a TypeError when v is
      not an object at all. */
  function Field(v: Value, key: string): (r: Result<Scalar>)
    ensures v.Atom? ==> r == Err(TypeError)
    ensures v.Object? && (forall i :: 0 <= i < |v.members| ==> v.members[i].key != key) ==> r == Err(KeyError(key))
    ensures v.Object? && (exists i :: 0 <= i < |v.members| && v.members[i].key == key) ==> r.Ok?
    ensures r.Ok? ==> v.Object? && exists i :: 0 <= i < |v.members| && v.members[i] == Member(key, r.value)
                                                 && forall j :: i < j < |v.members| ==> v.members[j].key != key
  {
    match v
    case Atom(_) => Err(TypeError)
    case Object(ms) =>
      match Lookup(ms, key)
      case None => Err(KeyError(key))
      case Some(x) => Ok(x)
  }

  // =====================================================================
  // Round trip: json.loads(json.dumps(v)) == v

  /** The characters read so far put in front of what the rest of a literal yields. */
  function Prepend(c: char, r: Result<(string, string)>): Result<(string, string)> {
    match r
    case Ok(p) => Ok(([c] + p.0, p.1))
    case Err(e) => Err(e)
  }

  /** Parsing the escape of c reads back c and leaves the text after it. */
  lemma ParseEscapedChar(c: char, t: string)
    ensures ParseStringBody(EscapeChar(c) + t) == Prepend(c, ParseStringBody(t))
  {
    if IsPlain(c) {
      ParsePlainChar(c, t);
    } else {
      ParseBackslash(c, t);
    }
  }

  lemma ParsePlainChar(c: char, t: string)
    requires IsPlain(c)
    ensures ParseStringBody(EscapeChar(c) + t) == Prepend(c, ParseStringBody(t))
  {
    var s := [c] + t;
    assert EscapeChar(c) + t == s;
    assert s[0] == c && s[1..] == t;
  }

  lemma ParseBackslash(c: char, t: string)
    requires !IsPlain(c)
    ensures ParseStringBody(EscapeChar(c) + t) == Prepend(c, ParseStringBody(t))
  {
    var tail := EscapeTail(c);
    var s := ['\\'] + (tail + t);
    assert EscapeChar(c) + t == s;
    assert s[0] == '\\' && s[1..] == tail + t;
    ParseEscapeTail(c, t);
  }

  /** What follows the backslash of an escape is read back as the character. */
  lemma ParseEscapeTail(c: char, t: string)
    requires !IsPlain(c)
    ensures ParseEscape(EscapeTail(c) + t) == Ok((c, t))
  {
    if c == '"' || c == '\\' || c == '\n' || c == '\r' || c == '\t' || c == Backspace || c == FormFeed {
      assert (EscapeTail(c) + t)[1..] == t;
    } else if (c as int) < 0x10000 {
      ParseUnicodeEscape(c, t);
    } else {
      ParseSurrogatePair(c, t);
    }
  }

  lemma ParseUnicodeEscape(c: char, t: string)
    requires !IsPlain(c) && (c as int) < 0x10000
    requires !(c == '"' || c == '\\' || c == '\n' || c == '\r' || c == '\t' || c == Backspace || c == FormFeed)
    ensures ParseEscape(EscapeTail(c) + t) == Ok((c, t))
  {
    var h := Hex4(c as int);
    var s := ['u'] + h + t;
    assert EscapeTail(c) == ['u'] + h;
    assert s[1..] == h + t;
    ParseHex4Prefix(h, t);
    ParseHex4Text(c as int);
    assert s[5..] == t;
  }

  lemma ParseSurrogatePair(c: char, t: string)
    requires (c as int) >= 0x10000
    ensures ParseEscape(EscapeTail(c) + t) == Ok((c, t))
  {
    SurrogatePairLayout(c, t);
    ParseSurrogateChar(EscapeTail(c) + t, c);
  }

  /** Text holding the surrogate pair of c reads back as c. */
  lemma ParseSurrogateChar(s: string, c: char)
    requires (c as int) >= 0x10000
    requires |s| >= 11 && s[0] == 'u' && s[5] == '\\' && s[6] == 'u'
    requires ParseHex4(s[1..]) == Some(HighSurrogate(c)) && ParseHex4(s[7..]) == Some(LowSurrogate(c))
    ensures ParseEscape(s) == Ok((c, s[11..]))
  {
    ParseEscapePair(s, HighSurrogate(c), LowSurrogate(c));
  }

  /** Where the pieces of an escaped surrogate pair sit. */
  lemma SurrogatePairLayout(c: char, t: string)
    requires (c as int) >= 0x10000
    ensures var s := EscapeTail(c) + t;
      && |s| >= 11 && s[0] == 'u' && s[5] == '\\' && s[6] == 'u'
      && ParseHex4(s[1..]) == Some(HighSurrogate(c))
      && ParseHex4(s[7..]) == Some(LowSurrogate(c))
      && s[11..] == t
  {
    var hi := Hex4(HighSurrogate(c));
    var lo := Hex4(LowSurrogate(c));
    assert EscapeTail(c) == ['u'] + hi + ['\\', 'u'] + lo;
    PairLayout(hi, lo, t);
    ParseHex4Prefix(hi, ['\\', 'u'] + lo + t);
    ParseHex4Text(HighSurrogate(c));
    ParseHex4Prefix(lo, t);
    ParseHex4Text(LowSurrogate(c));
  }

  lemma PairLayout(hi: string, lo: string, t: string)
    requires |hi| == 4 && |lo| == 4
    ensures var s := ['u'] + hi + ['\\', 'u'] + lo + t;
      && |s| >= 11 && s[0] == 'u' && s[5] == '\\' && s[6] == 'u'
      && s[1..] == hi + (['\\', 'u'] + lo + t)
      && s[7..] == lo + t
      && s[11..] == t
  {
    var s := ['u'] + hi + ['\\', 'u'] + lo + t;
    assert s == ['u'] + (hi + (['\\', 'u'] + lo + t));
    assert s[5..] == ['\\', 'u'] + lo + t;
  }

  lemma ParseEscapePair(s: string, u: nat, u2: nat)
    requires |s| >= 11 && s[0] == 'u' && s[5] == '\\' && s[6] == 'u'
    requires ParseHex4(s[1..]) == Some(u) && 0xD800 <= u < 0xDC00
    requires ParseHex4(s[7..]) == Some(u2) && 0xDC00 <= u2 < 0xE000
    ensures ParseEscape(s) == Ok(((0x10000 + (u - 0xD800) * 0x400 + (u2 - 0xDC00)) as char, s[11..]))
  {
  }

  lemma ParseHex4Prefix(h: string, t: string)
    requires |h| == 4
    ensures ParseHex4(h + t) == ParseHex4(h)
  {
    assert (h + t)[..4] == h;
  }

  lemma ParseHex4Text(n: nat)
    requires n < 0x10000
    ensures ParseHex4(Hex4(n)) == Some(n)
  {
    var q1 := n / 16;
    var q2 := q1 / 16;
    var h := Hex4(n);
    assert Hex.DigitValue(h[0]) == Some(q2 / 16);
    assert Hex.DigitValue(h[1]) == Some(q2 % 16);
    assert Hex.DigitValue(h[2]) == Some(q1 % 16);
    assert Hex.DigitValue(h[3]) == Some(n % 16);
    assert q2 / 16 * 16 + q2 % 16 == q2;
    assert q2 * 16 + q1 % 16 == q1;
    assert q1 * 16 + n % 16 == n;
  }

  /** A string literal's body is read back whatever follows its closing quote. */
  lemma {:induction false} ParseQuoted(s: string, rest: string)
    ensures ParseStringBody(Escape(s) + "\"" + rest) == Ok((s, rest))
  {
    if s == [] {
      assert Escape(s) + "\"" + rest == "\"" + rest;
    } else {
      var head, tail := EscapeChar(s[0]), Escape(s[1..]);
      assert Escape(s) == head + tail;
      var t := tail + "\"" + rest;
      Regroup3(head, tail, "\"", rest);
      ParseEscapedChar(s[0], t);
      ParseQuoted(s[1..], rest);
      assert [s[0]] + s[1..] == s;
    }
  }

  lemma Regroup3(a: string, b: string, c: string, d: string)
    ensures (a + b) + c + d == a + (b + c + d)
  {
  }

  /** Text may follow a number when it cannot be read as part of that number. */
  predicate EndsNumber(rest: string) {
    rest == [] || rest[0] == ',' || rest[0] == '}'
  }

  lemma {:induction false} DigitSpanPrefix(ds: string, rest: string)
    requires forall i :: 0 <= i < |ds| ==> IsDigit(ds[i])
    requires EndsNumber(rest)
    ensures DigitSpan(ds + rest) == |ds|
  {
    if ds != [] {
      assert (ds + rest)[1..] == ds[1..] + rest;
      DigitSpanPrefix(ds[1..], rest);
    }
  }

  lemma ParseNatText(n: nat, rest: string)
    requires EndsNumber(rest)
    ensures ParseNat(NatText(n) + rest) == Ok((n, rest))
  {
    var ds := NatText(n);
    var s := ds + rest;
    DigitSpanPrefix(ds, rest);
    assert s[..|ds|] == ds && s[|ds|..] == rest;
  }

  lemma ParseScalarText(x: Scalar, rest: string)
    requires EndsNumber(rest)
    ensures ParseScalar(ScalarText(x) + rest) == Ok((x, rest))
  {
    match x
    case Null => ParseWord("null", Null, rest);
    case Bool(b) => if b { ParseWord("true", x, rest); } else { ParseWord("false", x, rest); }
    case Int(i) => ParseIntText(i, rest);
    case Str(t) => ParseStrText(t, rest);
  }

  lemma ParseWord(word: string, x: Scalar, rest: string)
    requires (word, x) in {("null", Null), ("true", Bool(true)), ("false", Bool(false))}
    ensures ScalarText(x) == word
    ensures ParseScalar(word + rest) == Ok((x, rest))
  {
    var s := word + rest;
    assert s[..|word|] == word && s[|word|..] == rest;
    assert s[0] == word[0];
    if word == "false" {
      assert s[..4] == "fals";
    }
  }

  lemma ParseIntText(i: int, rest: string)
    requires EndsNumber(rest)
    ensures ParseScalar(IntText(i) + rest) == Ok((Int(i), rest))
  {
    if i < 0 {
      NegativeLayout(i, rest);
      ParseNatText(-i, rest);
      ParseNegative(IntText(i) + rest, -i, rest);
    } else {
      ParseNatText(i, rest);
      ParseNonNegative(NatText(i) + rest, i, rest);
    }
  }

  lemma NegativeLayout(i: int, rest: string)
    requires i < 0
    ensures var s := IntText(i) + rest;
      |s| > 1 && s[0] == '-' && IsDigit(s[1]) && s[1..] == NatText(-i) + rest
  {
    var s := IntText(i) + rest;
    assert s == "-" + (NatText(-i) + rest);
  }

  lemma ParseNegative(s: string, n: nat, rest: string)
    requires |s| > 1 && s[0] == '-' && IsDigit(s[1])
    requires ParseNat(s[1..]) == Ok((n, rest))
    ensures ParseScalar(s) == Ok((Int(-(n as int)), rest))
  {
  }

  lemma ParseNonNegative(s: string, n: nat, rest: string)
    requires s != [] && IsDigit(s[0])
    requires ParseNat(s) == Ok((n, rest))
    ensures ParseScalar(s) == Ok((Int(n), rest))
  {
  }

  lemma ParseStrText(t: string, rest: string)
    ensures ParseScalar(Quote(t) + rest) == Ok((Str(t), rest))
  {
    QuotedLayout(t, rest);
    ParseQuoted(t, rest);
    ParseStrStep(Quote(t) + rest, t, rest);
  }

  lemma ParseStrStep(s: string, t: string, rest: string)
    requires s != [] && s[0] == '"' && ParseStringBody(s[1..]) == Ok((t, rest))
    ensures ParseScalar(s) == Ok((Str(t), rest))
  {
  }

  /** The members of a non-empty object are read back, and then the text after its brace. */
  lemma {:induction false} ParseMembersText(ms: seq<Member>, rest: string)
    requires ms != []
    ensures ParseMembers(MembersText(ms) + "}" + rest) == Ok((ms, rest))
  {
    var m := ms[0];
    var s := MembersText(ms) + "}" + rest;
    var tail := if |ms| == 1 then "}" + rest else ", " + (MembersText(ms[1..]) + "}" + rest);
    MemberLayout(ms, rest);
    ParseMemberText(m.key, m.value, tail);
    if |ms| == 1 {
      ParseLastMember(s, m, tail);
      assert [m] == ms;
    } else {
      var next := MembersText(ms[1..]) + "}" + rest;
      ParseMembersText(ms[1..], rest);
      DropFirst(',', " " + next);
      SkipOneSpace(next);
      ParseNextMember(s, m, tail, ms[1..], rest);
      assert [m] + ms[1..] == ms;
    }
  }

  /** The key, the colon and the value of one member are read back. */
  lemma ParseMemberText(key: string, x: Scalar, tail: string)
    requires tail != [] && (tail[0] == ',' || tail[0] == '}')
    ensures ParseMember(Quote(key) + (": " + (ScalarText(x) + tail))) == Ok((Member(key, x), tail))
  {
    var v := ScalarText(x) + tail;
    var afterKey := ": " + v;
    var s := Quote(key) + afterKey;
    QuotedLayout(key, afterKey);
    ParseQuoted(key, afterKey);
    ColonLayout(v);
    ParseScalarText(x, tail);
    SkipOneSpace(tail);
    ParseMemberStep(s, key, afterKey, v, x, tail);
  }

  lemma ParseMemberStep(s: string, key: string, afterKey: string, v: string, x: Scalar, tail: string)
    requires s != [] && s[0] == '"' && ParseStringBody(s[1..]) == Ok((key, afterKey))
    requires |afterKey| > 1 && afterKey[0] == ':' && SkipWhitespace(afterKey[1..]) == v
    requires ParseScalar(v) == Ok((x, tail)) && SkipWhitespace(tail) == tail
    ensures ParseMember(s) == Ok((Member(key, x), tail))
  {
  }

  lemma ColonLayout(v: string)
    requires v != [] && !IsWhitespace(v[0])
    ensures var afterKey := ": " + v; |afterKey| > 1 && afterKey[0] == ':' && SkipWhitespace(afterKey[1..]) == v
  {
    var afterKey := ": " + v;
    assert afterKey[1..] == " " + v;
    SkipOneSpace(v);
  }

  /** How the text of a member list splits around its first member. */
  lemma MemberLayout(ms: seq<Member>, rest: string)
    requires ms != []
    ensures MembersText(ms) + "}" + rest ==
      Quote(ms[0].key) + (": " + (ScalarText(ms[0].value) +
        (if |ms| == 1 then "}" + rest else ", " + (MembersText(ms[1..]) + "}" + rest))))
  {
    var q, v := Quote(ms[0].key), ScalarText(ms[0].value);
    if |ms| == 1 {
      Regroup4(q, ": ", v, "}", rest);
    } else {
      Regroup6(q, ": ", v, ", ", MembersText(ms[1..]), "}", rest);
    }
  }

  lemma DropFirst(c: char, s: string)
    ensures ([c] + s)[1..] == s
  {
  }

  lemma Regroup4(a: string, b: string, c: string, d: string, e: string)
    ensures a + b + c + d + e == a + (b + (c + (d + e)))
  {
  }

  lemma Regroup6(a: string, b: string, c: string, d: string, e: string, f: string, g: string)
    ensures a + b + c + d + e + f + g == a + (b + (c + (d + (e + f + g))))
  {
  }

  lemma QuotedLayout(key: string, after: string)
    ensures var s := Quote(key) + after; s[0] == '"' && s[1..] == Escape(key) + "\"" + after
  {
    QuoteLayout(Escape(key), after);
  }

  lemma QuoteLayout(e: string, after: string)
    ensures var s := "\"" + e + "\"" + after; s[0] == '"' && s[1..] == e + "\"" + after
  {
    var s := "\"" + e + "\"" + after;
    assert s == ['"'] + (e + "\"" + after);
  }

  lemma SkipOneSpace(s: string)
    requires s != [] && !IsWhitespace(s[0])
    ensures SkipWhitespace(s) == s
    ensures SkipWhitespace(" " + s) == s
  {
    assert (" " + s)[1..] == s;
  }

  lemma ParseLastMember(s: string, m: Member, tail: string)
    requires ParseMember(s) == Ok((m, tail))
    requires tail != [] && tail[0] == '}'
    ensures ParseMembers(s) == Ok(([m], tail[1..]))
  {
  }

  lemma ParseNextMember(s: string, m: Member, tail: string, ms: seq<Member>, rest: string)
    requires ParseMember(s) == Ok((m, tail))
    requires tail != [] && tail[0] == ','
    requires ParseMembers(SkipWhitespace(tail[1..])) == Ok((ms, rest))
    ensures ParseMembers(s) == Ok(([m] + ms, rest))
  {
  }

  /** json.loads(json.dumps(v)) == v. */
  lemma LoadsDumps(v: Value)
    ensures Loads(Dumps(v)) == Ok(v)
  {
    match v
    case Atom(x) => LoadsAtom(x);
    case Object(ms) => LoadsObject(ms);
  }

  lemma LoadsAtom(x: Scalar)
    ensures Loads(ScalarText(x)) == Ok(Atom(x))
  {
    var s := ScalarText(x);
    assert s[0] != '{';
    ParseScalarText(x, []);
    assert s + [] == s;
    LoadsWhole(s, Atom(x));
  }

  lemma LoadsObject(ms: seq<Member>)
    ensures Loads("{" + MembersText(ms) + "}") == Ok(Object(ms))
  {
    var body := MembersText(ms) + "}";
    var s := "{" + body;
    Regroup2("{", MembersText(ms), "}");
    DropFirst('{', body);
    if ms == [] {
      assert body == "}";
      assert ParseObject(body) == Ok((Object([]), []));
    } else {
      assert body == MembersText(ms) + "}" + [];
      ParseMembersText(ms, []);
      FirstOfConcat(MembersText(ms), "}");
      ParseObjectMembers(body, ms, []);
    }
    LoadsWhole(s, Object(ms));
  }

  lemma Regroup2(a: string, b: string, c: string)
    ensures a + b + c == a + (b + c)
  {
  }

  lemma FirstOfConcat(a: string, b: string)
    requires a != []
    ensures (a + b)[0] == a[0]
  {
  }

  lemma ParseObjectMembers(body: string, ms: seq<Member>, rest: string)
    requires body != [] && body[0] == '"' && ParseMembers(body) == Ok((ms, rest))
    ensures ParseObject(body) == Ok((Object(ms), rest))
  {
  }

  /** A document that parses with nothing after it is what json.loads returns. */
  lemma LoadsWhole(s: string, v: Value)
    requires s != [] && !IsWhitespace(s[0]) && ParseValue(s) == Ok((v, []))
    ensures Loads(s) == Ok(v)
  {
  }

  /** A '.' or an exponent marker without its digits ends the number, so what
      follows is extra data rather than a float. */
  lemma NumberWithoutFraction()
    ensures Loads("1.") == Err(JsonDecodeError("Extra data"))
    ensures Loads("1.5").Err? && Loads("1.5").error == Unsupported("float")
  {
  }
}

=== FILE: layers.dfy ===
/** The record the five header stages share: a header field and the body,
    written as a JSON object, and read back by looking up the body's key. */
module Envelope {
  import opened Results
  import Json

  /** {header.key: header.value, bodyKey: body}, in that order. */
  function Record(header: Json.Member, bodyKey: string, body: string): Json.Value {
    Json.Object([header, Json.Member(bodyKey, Json.Str(body))])
  }

  /** json.dumps of the record: text that starts with the object's brace and
      reads back as the record, header included. */
  function Wrap(header: Json.Member, bodyKey: string, body: string): (text: string)
    ensures text != [] && text[0] == '{'
    ensures Json.Loads(text) == Ok(Record(header, bodyKey, body))
  {
    Json.LoadsDumps(Record(header, bodyKey, body));
    Json.Dumps(Record(header, bodyKey, body))
  }

  /** The document a stage receives, read as JSON: json.loads raises a
      TypeError on anything but a str. */
  function Parse(x: Json.Scalar): (r: Result<Json.Value>)
    ensures !x.Str? ==> r == Err(TypeError)
    ensures x.Str? ==> r == Json.Loads(x.s)
  {
    if x.Str? then Json.Loads(x.s) else Err(TypeError)
  }

  /** The text is a JSON object whose value for key (the last one given) is value. */
  predicate HasField(text: string, key: string, value: Json.Scalar) {
    Json.Loads(text).Ok? && Json.Loads(text).value.Object?
    && Json.Lookup(Json.Loads(text).value.members, key) == Some(value)
  }

  /** The text is a JSON object that has the key. */
  predicate HasKey(text: string, key: string) {
    Json.Loads(text).Ok? && Json.Loads(text).value.Object?
    && Json.Lookup(Json.Loads(text).value.members, key).Some?
  }

  /** The text is a JSON document, but not an object. */
  predicate IsAtomText(text: string) {
    Json.Loads(text).Ok? && Json.Loads(text).value.Atom?
  }

  /** The text is a JSON object without the key. */
  predicate LacksField(text: string, key: string) {
    Json.Loads(text).Ok? && Json.Loads(text).value.Object?
    && Json.Lookup(Json.Loads(text).value.members, key).None?
  }

  /** json.loads(x)[bodyKey]: the body when the document is an object that
      has the key, a KeyError when it lacks it; there is no default body. */
  function Open(x: Json.Scalar, bodyKey: string): (r: Result<Json.Scalar>)
    ensures !x.Str? ==> r == Err(TypeError)
    ensures x.Str? && Json.Loads(x.s).Err? ==> r == Err(Json.Loads(x.s).error)
    ensures x.Str? && IsAtomText(x.s) ==> r == Err(TypeError)
    ensures x.Str? && LacksField(x.s, bodyKey) ==> r == Err(KeyError(bodyKey))
    ensures x.Str? && HasKey(x.s, bodyKey) ==> r.Ok?
    ensures r.Ok? ==> x.Str? && HasField(x.s, bodyKey, r.value)
  {
    var v :- Parse(x);
    Json.Field(v, bodyKey)
  }

  /** Opening a wrapped record gives back its body, whatever the header is:
      the body is the last member, and the last member with a key wins. */
  lemma OpenWrap(header: Json.Member, bodyKey: string, body: string)
    ensures Open(Json.Str(Wrap(header, bodyKey, body)), bodyKey) == Ok(Json.Str(body))
  {
    var ms := [header, Json.Member(bodyKey, Json.Str(body))];
    assert Json.Lookup(ms, bodyKey) == Some(Json.Str(body));
  }

  /** The header is read back unchanged from the wrapped record. */
  lemma HeaderKept(header: Json.Member, bodyKey: string, body: string)
    requires header.key != bodyKey
    ensures Open(Json.Str(Wrap(header, bodyKey, body)), header.key) == Ok(header.value)
  {
    var ms := [header, Json.Member(bodyKey, Json.Str(body))];
    assert ms[..1] == [header];
    assert Json.Lookup(ms, header.key) == Some(header.value);
  }
}

/** DataLinkLayer: the frame carries a MAC address. */
module DataLink {
  import opened Results
  import Json
  import Envelope

  const DefaultMac: string := "AA:BB:CC:DD:EE:FF"

  function Send(data: string, mac: string := DefaultMac): (frame: string)
    ensures frame != [] && frame[0] == '{'
    ensures Json.Loads(frame) == Ok(Json.Object([Json.Member("MAC", Json.Str(mac)), Json.Member("Payload", Json.Str(data))]))
  {
    Envelope.Wrap(Json.Member("MAC", Json.Str(mac)), "Payload", data)
  }

  function Receive(frame: string): (r: Result<Json.Scalar>)
    ensures Json.Loads(frame).Err? ==> r == Err(Json.Loads(frame).error)
    ensures Envelope.IsAtomText(frame) ==> r == Err(TypeError)
    ensures Envelope.LacksField(frame, "Payload") ==> r == Err(KeyError("Payload"))
    ensures Envelope.HasKey(frame, "Payload") ==> r.Ok?
    ensures r.Ok? ==> Envelope.HasField(frame, "Payload", r.value)
  {
    Envelope.Open(Json.Str(frame), "Payload")
  }

  /** receive(send(d, mac)) == d for every MAC address. */
  lemma RoundTrip(data: string, mac: string)
    ensures Receive(Send(data, mac)) == Ok(Json.Str(data))
  {
    Envelope.OpenWrap(Json.Member("MAC", Json.Str(mac)), "Payload", data);
  }
}

/** NetworkLayer: the packet carries an IP address. */
module Network {
  import opened Results
  import Json
  import Envelope

  const DefaultIp: string := "192.168.1.1"

  function Send(data: string, ip: string := DefaultIp): (packet: string)
    ensures packet != [] && packet[0] == '{'
    ensures Json.Loads(packet) == Ok(Json.Object([Json.Member("IP", Json.Str(ip)), Json.Member("Payload", Json.Str(data))]))
  {
    Envelope.Wrap(Json.Member("IP", Json.Str(ip)), "Payload", data)
  }

  /** packet is whatever the stage below handed up; it must be JSON text. */
  function Receive(packet: Json.Scalar): (r: Result<Json.Scalar>)
    ensures !packet.Str? ==> r == Err(TypeError)
    ensures packet.Str? && Json.Loads(packet.s).Err? ==> r == Err(Json.Loads(packet.s).error)
    ensures packet.Str? && Envelope.IsAtomText(packet.s) ==> r == Err(TypeError)
    ensures packet.Str? && Envelope.LacksField(packet.s, "Payload") ==> r == Err(KeyError("Payload"))
    ensures packet.Str? && Envelope.HasKey(packet.s, "Payload") ==> r.Ok?
    ensures r.Ok? ==> packet.Str? && Envelope.HasField(packet.s, "Payload", r.value)
  {
    Envelope.Open(packet, "Payload")
  }

  lemma RoundTrip(data: string, ip: string)
    ensures Receive(Json.Str(Send(data, ip))) == Ok(Json.Str(data))
  {
    Envelope.OpenWrap(Json.Member("IP", Json.Str(ip)), "Payload", data);
  }
}

/** TransportLayer: the segment carries a sequence number. */
module Transport {
  import opened Results
  import Json
  import Envelope

  const DefaultSequence: int := 1

  function Send(data: string, sequence: int := DefaultSequence): (segment: string)
    ensures segment != [] && segment[0] == '{'
    ensures Json.Loads(segment) == Ok(Json.Object([Json.Member("Sequence", Json.Int(sequence)), Json.Member("Payload", Json.Str(data))]))
  {
    Envelope.Wrap(Json.Member("Sequence", Json.Int(sequence)), "Payload", data)
  }

  function Receive(segment: Json.Scalar): (r: Result<Json.Scalar>)
    ensures !segment.Str? ==> r == Err(TypeError)
    ensures segment.Str? && Json.Loads(segment.s).Err? ==> r == Err(Json.Loads(segment.s).error)
    ensures segment.Str? && Envelope.IsAtomText(segment.s) ==> r == Err(TypeError)
    ensures segment.Str? && Envelope.LacksField(segment.s, "Payload") ==> r == Err(KeyError("Payload"))
    ensures segment.Str? && Envelope.HasKey(segment.s, "Payload") ==> r.Ok?
    ensures r.Ok? ==> segment.Str? && Envelope.HasField(segment.s, "Payload", r.value)
  {
    Envelope.Open(segment, "Payload")
  }

  lemma RoundTrip(data: string, sequence: int)
    ensures Receive(Json.Str(Send(data, sequence))) == Ok(Json.Str(data))
  {
    Envelope.OpenWrap(Json.Member("Sequence", Json.Int(sequence)), "Payload", data);
  }
}

/** SessionLayer: the record carries a session id. */
module Session {
  import opened Results
  import Json
  import Envelope

  const DefaultSessionId: int := 1001

  function Send(data: string, sessionId: int := DefaultSessionId): (sessionData: string)
    ensures sessionData != [] && sessionData[0] == '{'
    ensures Json.Loads(sessionData) == Ok(Json.Object([Json.Member("SessionID", Json.Int(sessionId)), Json.Member("Payload", Json.Str(data))]))
  {
    Envelope.Wrap(Json.Member("SessionID", Json.Int(sessionId)), "Payload", data)
  }

  function Receive(sessionData: Json.Scalar): (r: Result<Json.Scalar>)
    ensures !sessionData.Str? ==> r == Err(TypeError)
    ensures sessionData.Str? && Json.Loads(sessionData.s).Err? ==> r == Err(Json.Loads(sessionData.s).error)
    ensures sessionData.Str? && Envelope.IsAtomText(sessionData.s) ==> r == Err(TypeError)
    ensures sessionData.Str? && Envelope.LacksField(sessionData.s, "Payload") ==> r == Err(KeyError("Payload"))
    ensures sessionData.Str? && Envelope.HasKey(sessionData.s, "Payload") ==> r.Ok?
    ensures r.Ok? ==> sessionData.Str? && Envelope.HasField(sessionData.s, "Payload", r.value)
  {
    Envelope.Open(sessionData, "Payload")
  }

  lemma RoundTrip(data: string, sessionId: int)
    ensures Receive(Json.Str(Send(data, sessionId))) == Ok(Json.Str(data))
  {
    Envelope.OpenWrap(Json.Member("SessionID", Json.Int(sessionId)), "Payload", data);
  }
}

/** PresentationLayer: the body is pickled and the pickle written in hex. */
module Presentation {
  import opened Bytes
  import opened Results
  import Json
  import Hex
  import Pickle
  import Utf8

  function Send(data: string): (encoded: string)
    ensures |encoded| == 2 * |Pickle.Dumps(data)|
    ensures forall i :: 0 <= i < |encoded| ==> Hex.IsLowerHexDigit(encoded[i])
    ensures Hex.Decode(encoded) == Ok(Pickle.Dumps(data))
  {
    Hex.DecodeEncode(Pickle.Dumps(data));
    Hex.Encode(Pickle.Dumps(data))
  }

  /** pickle.loads(bytes.fromhex(encoded)): a TypeError unless encoded is a
      str, then the errors of fromhex and of the unpickler. */
  function Receive(encoded: Json.Scalar): (r: Result<string>)
    ensures !encoded.Str? ==> r == Err(TypeError)
    ensures encoded.Str? && Hex.Decode(encoded.s).Err? ==> r == Err(Hex.NotHex)
    ensures r.Ok? ==> encoded.Str? && Hex.Decode(encoded.s).Ok?
                      && Pickle.Loads(Hex.Decode(encoded.s).value) == Ok(r.value)
  {
    if !encoded.Str? then Err(TypeError)
    else
      var bytes :- Hex.Decode(encoded.s);
      Pickle.Loads(bytes)
  }

  /** receive(send(d)) == d for every string whose UTF-8 form is shorter than
      2^64 bytes. */
  lemma RoundTrip(data: string)
    requires |Utf8.Encode(data)| < Pow(256, 8)
    ensures Receive(Json.Str(Send(data))) == Ok(data)
  {
    Pickle.LoadsDumps(data);
  }
}

/** ApplicationLayer: an HTTP-like GET request whose body is the data. */
module Application {
  import opened Results
  import Json
  import Envelope

  const Method: string := "GET"

  function Send(data: string): (request: string)
    ensures request != [] && request[0] == '{'
    ensures Json.Loads(request) == Ok(Json.Object([Json.Member("HTTP", Json.Str(Method)), Json.Member("Data", Json.Str(data))]))
    ensures |request| <= 12 * |data| + 148
  {
    SendLength(data);
    Envelope.Wrap(Json.Member("HTTP", Json.Str(Method)), "Data", data)
  }

  lemma SendLength(data: string)
    ensures |Envelope.Wrap(Json.Member("HTTP", Json.Str(Method)), "Data", data)| <= 12 * |data| + 148
  {
    var http := Json.Quote("HTTP") + ": " + Json.ScalarText(Json.Str(Method));
    var body := Json.Quote("Data") + ": " + Json.ScalarText(Json.Str(data));
    assert |Json.Escape("HTTP")| <= 48 && |Json.Escape("GET")| <= 36 && |Json.Escape("Data")| <= 48;
    assert |Json.Quote(data)| <= 12 * |data| + 2;
    var ms := [Json.Member("HTTP", Json.Str(Method)), Json.Member("Data", Json.Str(data))];
    assert ms[1..] == [Json.Member("Data", Json.Str(data))];
    assert Json.MembersText(ms[1..]) == body;
    assert Json.MembersText(ms) == http + ", " + body;
  }

  function Receive(request: string): (r: Result<Json.Scalar>)
    ensures Json.Loads(request).Err? ==> r == Err(Json.Loads(request).error)
    ensures Envelope.IsAtomText(request) ==> r == Err(TypeError)
    ensures Envelope.LacksField(request, "Data") ==> r == Err(KeyError("Data"))
    ensures Envelope.HasKey(request, "Data") ==> r.Ok?
    ensures r.Ok? ==> Envelope.HasField(request, "Data", r.value)
  {
    Envelope.Open(Json.Str(request), "Data")
  }

  lemma RoundTrip(data: string)
    ensures Receive(Send(data)) == Ok(Json.Str(data))
  {
    Envelope.OpenWrap(Json.Member("HTTP", Json.Str(Method)), "Data", data);
  }
}

=== FILE: osi.dfy ===
/** OSIModel: a message goes down through the seven stages on transmit and
    back up through them, in the reverse order, on receive. */
module Osi {
  import opened Bytes
  import opened Results
  import Json
  import Envelope
  import Utf8
  import Pickle
  import Physical
  import DataLink
  import Network
  import Transport
  import Session
  import Presentation
  import Application

  /** OSIModel.transmit: the bit string handed to the socket, each stage using
      its default header. */
  function Transmit(message: string): (wire: string)
    ensures Physical.IsBinary(wire) && wire[0] == '1'
    ensures |wire| % 8 == 7
  {
    var request := Application.Send(message);
    var encoded := Presentation.Send(request);
    var sessionData := Session.Send(encoded);
    var segment := Transport.Send(sessionData);
    var packet := Network.Send(segment);
    var frame := DataLink.Send(packet);
    BraceWireLength(frame);
    Physical.Send(frame)
  }

  /** OSIModel.receive: the stages undone from the bottom up. */
  function Receive(wire: string): (r: Result<Json.Scalar>)
    ensures !Physical.IsBinary(wire) ==> r == Err(Physical.NotBinary)
    ensures r.Ok? ==> Physical.IsBinary(wire) && Physical.Receive(wire).Ok?
  {
    var frame :- Physical.Receive(wire);
    var packet :- DataLink.Receive(frame);
    var segment :- Network.Receive(packet);
    var sessionData :- Transport.Receive(segment);
    var encoded :- Session.Receive(sessionData);
    var request :- Presentation.Receive(encoded);
    Application.Receive(request)
  }

  /** Text that starts with '{' (0x7B, seven significant bits) is sent as
      one digit short of a whole number of bytes. */
  lemma BraceWireLength(frame: string)
    requires frame != [] && frame[0] == '{'
    ensures |Physical.Send(frame)| == 8 * |Utf8.Encode(frame)| - 1
    ensures |Physical.Send(frame)| % 8 == 7
  {
    var bytes := Utf8.Encode(frame);
    assert bytes == Utf8.EncodeChar('{') + Utf8.Encode(frame[1..]);
    assert bytes[0] == 0x7B;
    SevenBitLead(bytes);
    OneShortOfBytes(|bytes|);
  }

  lemma OneShortOfBytes(k: nat)
    requires k >= 1
    ensures (8 * k - 1) % 8 == 7
  {
    assert 8 * k - 1 == 8 * (k - 1) + 7;
  }

  /** A leading byte in 64..127 makes the value exactly 8k-1 bits long. */
  lemma SevenBitLead(bytes: seq<byte>)
    requires bytes != [] && 64 <= bytes[0] < 128
    ensures |Physical.BinaryDigits(BigEndianValue(bytes))| == 8 * |bytes| - 1
  {
    var v := BigEndianValue(bytes);
    var e := 8 * (|bytes| - 1) + 6;
    SevenBitBounds(bytes);
    Physical.DigitsBounds(v);
    Pow2Exact(|Physical.BinaryDigits(v)|, e, v);
  }

  lemma SevenBitBounds(bytes: seq<byte>)
    requires bytes != [] && 64 <= bytes[0] < 128
    ensures var e := 8 * (|bytes| - 1) + 6;
      Pow(2, e) <= BigEndianValue(bytes) < Pow(2, e + 1)
  {
    var j: nat := |bytes| - 1;
    var p := Pow(256, j);
    BigEndianLeadingByte(bytes);
    ScaleUp(bytes[0], p);
    Pow256(j);
    PowAdd(2, 6, 8 * j);
    PowAdd(2, 7, 8 * j);
    assert Pow(2, 6) == 64 && Pow(2, 7) == 128;
  }

  lemma ScaleUp(b: int, p: int)
    requires 64 <= b < 128 && p >= 0
    ensures 64 * p <= b * p && (b + 1) * p <= 128 * p
  {
  }

  /** receive(transmit(m)) == m for every message shorter than 2^58
      characters: each stage undoes its partner, and the Physical stage's
      round trip applies because the Link stage's text starts with '{'. */
  lemma RoundTrip(message: string)
    requires |message| < 0x400_0000_0000_0000
    ensures Receive(Transmit(message)) == Ok(Json.Str(message))
  {
    var request := Application.Send(message);
    var encoded := Presentation.Send(request);
    var sessionData := Session.Send(encoded);
    var segment := Transport.Send(sessionData);
    var packet := Network.Send(segment);
    var frame := DataLink.Send(packet);
    Pickle.Pow256Values();
    Physical.RoundTrip(frame);
    DataLink.RoundTrip(packet, DataLink.DefaultMac);
    Network.RoundTrip(segment, Network.DefaultIp);
    Transport.RoundTrip(sessionData, Transport.DefaultSequence);
    Session.RoundTrip(encoded, Session.DefaultSessionId);
    Presentation.RoundTrip(request);
    Application.RoundTrip(message);
  }

  /** The order of the four stages that use "Payload" is not enforced on
      receipt: each of them unwraps what any of the others wrapped. */
  lemma PayloadStagesInterchangeable(data: string)
    ensures Network.Receive(Json.Str(DataLink.Send(data))) == Ok(Json.Str(data))
    ensures Transport.Receive(Json.Str(Network.Send(data))) == Ok(Json.Str(data))
    ensures Session.Receive(Json.Str(Transport.Send(data))) == Ok(Json.Str(data))
    ensures DataLink.Receive(Session.Send(data)) == Ok(Json.Str(data))
  {
    Envelope.OpenWrap(Json.Member("MAC", Json.Str(DataLink.DefaultMac)), "Payload", data);
    Envelope.OpenWrap(Json.Member("IP", Json.Str(Network.DefaultIp)), "Payload", data);
    Envelope.OpenWrap(Json.Member("Sequence", Json.Int(Transport.DefaultSequence)), "Payload", data);
    Envelope.OpenWrap(Json.Member("SessionID", Json.Int(Session.DefaultSessionId)), "Payload", data);
  }
}

=== FILE: physical.dfy ===
/** The Physical stage: text travels as the binary digits of the big-endian
    integer its UTF-8 bytes spell (webeng.py PhysicalLayer). The sender writes
    the digits without leading zeros; the receiver reads them back into
    ceil(len / 8) bytes. */
module Physical {
  import opened Bytes
  import opened Results
  import Utf8

  predicate IsBit(c: char) {
    c == '0' || c == '1'
  }

  /** A string int(s, 2) accepts in this model: one or more binary digits. */
  predicate IsBinary(s: string) {
    s != [] && forall i :: 0 <= i < |s| ==> IsBit(s[i])
  }

  function Bit(b: nat): (c: char)
    requires b < 2
    ensures IsBit(c)
  {
    if b == 0 then '0' else '1'
  }

  /** The number binary digits stand for, most significant first. */
  function DigitsValue(ds: string): (n: nat)
    requires forall i :: 0 <= i < |ds| ==> IsBit(ds[i])
    ensures n < Pow(2, |ds|)
    decreases |ds|
  {
    if ds == [] then 0
    else DigitsValue(ds[..|ds| - 1]) * 2 + (if ds[|ds| - 1] == '1' then 1 else 0)
  }

  /** bin(n)[2:]: the binary digits of n without leading zeros, "0" for zero. */
  function BinaryDigits(n: nat): (ds: string)
    ensures IsBinary(ds) && DigitsValue(ds) == n
    ensures n == 0 <==> ds == "0"
    ensures n > 0 ==> ds[0] == '1' && Pow(2, |ds| - 1) <= n
  {
    if n < 2 then [Bit(n)]
    else
      var init := BinaryDigits(n / 2);
      var ds := init + [Bit(n % 2)];
      assert ds[..|ds| - 1] == init;
      ds
  }

  /** PhysicalLayer.send: the UTF-8 bytes of data as one big-endian number,
      written in binary. */
  function Send(data: string): (wire: string)
    ensures IsBinary(wire)
    ensures DigitsValue(wire) == BigEndianValue(Utf8.Encode(data))
    ensures wire == "0" || wire[0] == '1'
    ensures data != [] && data[0] != '\0' ==> wire[0] == '1'
  {
    var bytes := Utf8.Encode(data);
    NonNulPositive(data);
    BinaryDigits(BigEndianValue(bytes))
  }

  /** Text that does not start with NUL has a leading byte above zero, so a
      positive value. */
  lemma NonNulPositive(data: string)
    ensures data != [] && data[0] != '\0' ==> BigEndianValue(Utf8.Encode(data)) > 0
  {
    if data != [] && data[0] != '\0' {
      var bytes := Utf8.Encode(data);
      BigEndianLeadingByte(bytes);
      AtLeastOnce(bytes[0], Pow(256, |bytes| - 1));
    }
  }

  lemma AtLeastOnce(a: int, p: int)
    requires a >= 1 && p >= 0
    ensures a * p >= p
  {
  }

  /** The error int(s, 2) raises on a string that is not a binary number. */
  const NotBinary: Error := ValueError("invalid literal for int() with base 2")

  /** PhysicalLayer.receive: the digits read as a number, that number laid out
      big-endian in ceil(len / 8) bytes, and those bytes decoded as UTF-8. */
  function Receive(wire: string): (r: Result<string>)
    ensures !IsBinary(wire) ==> r == Err(NotBinary)
    ensures IsBinary(wire) && r.Err? ==> r.error == UnicodeDecodeError
    ensures r.Ok? ==> (IsBinary(wire)
      && |Utf8.Encode(r.value)| == (|wire| + 7) / 8
      && BigEndianValue(Utf8.Encode(r.value)) == DigitsValue(wire))
  {
    if !IsBinary(wire) then Err(NotBinary)
    else
      var width := (|wire| + 7) / 8;
      var bytes := BigEndian(DigitsValue(wire), width);
      FitsInWidth(wire);
      match Utf8.Decode(bytes)
      case Err(e) => Err(e)
      case Ok(text) =>
        Utf8.EncodeDecode(bytes);
        Ok(text)
  }

  /** Conversely, a binary wire is received as any text whose UTF-8 form,
      at ceil(len / 8) bytes, spells the wire's value: leading zero digits
      included. */
  lemma ReceiveSpelled(wire: string, text: string)
    requires IsBinary(wire)
    requires |Utf8.Encode(text)| == (|wire| + 7) / 8
    requires BigEndianValue(Utf8.Encode(text)) == DigitsValue(wire)
    ensures Receive(wire) == Ok(text)
  {
    BigEndianOfValue(Utf8.Encode(text));
    Utf8.DecodeEncode(text);
  }

  /** The number never needs more than ceil(len / 8) bytes, so the
      OverflowError int.to_bytes could raise does not arise. */
  lemma FitsInWidth(wire: string)
    requires IsBinary(wire)
    ensures DigitsValue(wire) < Pow(256, (|wire| + 7) / 8)
  {
    var width := (|wire| + 7) / 8;
    Pow256(width);
    if |wire| < 8 * width {
      Pow2Increasing(|wire|, 8 * width);
    }
  }

  /** Text that is not empty and does not start with NUL is sent as exactly
      8k-7 to 8k digits, k being its UTF-8 length, so the receiver sizes its
      bytes right. */
  lemma SendLength(data: string)
    requires data != [] && data[0] != '\0'
    ensures var k := |Utf8.Encode(data)|;
      8 * k - 7 <= |Send(data)| <= 8 * k && (|Send(data)| + 7) / 8 == k
  {
    var v := BigEndianValue(Utf8.Encode(data));
    ValueBounds(Utf8.Encode(data));
    DigitsBounds(v);
    LengthFromBounds(|Send(data)|, |Utf8.Encode(data)|, v);
  }

  /** A value whose leading byte is not zero needs all of its bytes. */
  lemma ValueBounds(bytes: seq<byte>)
    requires bytes != [] && bytes[0] != 0
    ensures var k := |bytes|;
      Pow(2, 8 * (k - 1)) <= BigEndianValue(bytes) < Pow(2, 8 * k)
  {
    var k := |bytes|;
    var j: nat := k - 1;
    BigEndianLeadingByte(bytes);
    AtLeastOnce(bytes[0], Pow(256, j));
    Pow256(j);
    Pow256(k);
  }

  lemma DigitsBounds(n: nat)
    requires n > 0
    ensures Pow(2, |BinaryDigits(n)| - 1) <= n < Pow(2, |BinaryDigits(n)|)
  {
  }

  /** Two powers of two bracketing the same value have the same exponent, up
      to the rounding of eight bits to a byte. */
  lemma LengthFromBounds(len: nat, k: nat, v: nat)
    requires k >= 1 && len >= 1
    requires Pow(2, 8 * (k - 1)) <= v < Pow(2, 8 * k)
    requires Pow(2, len - 1) <= v < Pow(2, len)
    ensures 8 * k - 7 <= len <= 8 * k && (len + 7) / 8 == k
  {
    Pow2Order(8 * (k - 1), len);
    Pow2Order(len - 1, 8 * k);
  }

  /** receive(send(s)) == s whenever the first byte of s is not zero. */
  lemma RoundTrip(data: string)
    requires data != [] && data[0] != '\0'
    ensures Receive(Send(data)) == Ok(data)
  {
    var bytes := Utf8.Encode(data);
    SendLength(data);
    BigEndianOfValue(bytes);
    Utf8.DecodeEncode(data);
  }

  /** The empty string does not survive: it is sent as "0", which is received
      as a single NUL character. */
  lemma EmptyNotRecovered()
    ensures Send("") == "0"
    ensures Receive("0") == Ok("\0")
    ensures Receive(Send("")) != Ok("")
  {
    assert Utf8.Encode("") == [];
    assert IsBinary("0") && DigitsValue("0") == 0;
    assert BigEndian(0, 1) == [0];
    assert Utf8.DecodeFirst([0]) == Some(('\0', 1));
    assert Utf8.Decode([0]) == Ok(['\0'] + []);
    assert ['\0'] + [] == "\0";
    assert Utf8.Decode(BigEndian(DigitsValue("0"), (|"0"| + 7) / 8)) == Ok("\0");
  }

  /** A leading NUL leaves no trace on the wire, so it is lost in transit. */
  lemma LeadingNulLost(data: string)
    requires data != [] && data[0] != '\0'
    ensures Send(['\0'] + data) == Send(data)
    ensures Receive(Send(['\0'] + data)) == Ok(data)
  {
    var bytes := Utf8.Encode(data);
    assert (['\0'] + data)[1..] == data;
    assert Utf8.Encode(['\0'] + data) == [0] + bytes;
    BigEndianLeadingZero(bytes);
    RoundTrip(data);
  }

  /** Digits that start with '1' are the digits of their own value. */
  lemma {:induction false} BinaryDigitsOfValue(ds: string)
    requires IsBinary(ds) && ds[0] == '1'
    ensures BinaryDigits(DigitsValue(ds)) == ds
    decreases |ds|
  {
    if |ds| == 1 {
      assert ds == "1";
    } else {
      var init := ds[..|ds| - 1];
      var b := if ds[|ds| - 1] == '1' then 1 else 0;
      InitDigits(ds);
      BinaryDigitsOfValue(init);
      LeadingOnePositive(init);
      BinaryDigitsStep(DigitsValue(init), b);
      AppendDigit(init, ds, b);
    }
  }

  lemma AppendDigit(init: string, ds: string, b: nat)
    requires b < 2 && IsBinary(ds) && init + [Bit(b)] == ds
    requires BinaryDigits(DigitsValue(ds)) == BinaryDigits(DigitsValue(init)) + [Bit(b)]
    requires BinaryDigits(DigitsValue(init)) == init
    ensures BinaryDigits(DigitsValue(ds)) == ds
  {
  }

  /** Dropping the last digit of a binary string with a leading one. */
  lemma InitDigits(ds: string)
    requires IsBinary(ds) && ds[0] == '1' && |ds| > 1
    ensures var init := ds[..|ds| - 1];
      IsBinary(init) && init[0] == '1'
      && DigitsValue(ds) == DigitsValue(init) * 2 + (if ds[|ds| - 1] == '1' then 1 else 0)
      && init + [Bit(if ds[|ds| - 1] == '1' then 1 else 0)] == ds
  {
  }

  /** Appending a digit to a positive number's digits doubles it and adds the digit. */
  lemma BinaryDigitsStep(v: nat, b: nat)
    requires v >= 1 && b < 2
    ensures BinaryDigits(v * 2 + b) == BinaryDigits(v) + [Bit(b)]
  {
    assert (v * 2 + b) / 2 == v && (v * 2 + b) % 2 == b;
  }

  lemma {:induction false} LeadingOnePositive(ds: string)
    requires IsBinary(ds) && ds[0] == '1'
    ensures DigitsValue(ds) >= 1
    decreases |ds|
  {
    if |ds| > 1 {
      LeadingOnePositive(ds[..|ds| - 1]);
    }
  }

  /** send(receive(w)) == w for every wire string received without error that
      has no leading zero digit: the sender's digits are the only ones that
      decode to a given text. */
  lemma SendReceive(wire: string)
    requires Receive(wire).Ok? && wire[0] == '1'
    ensures Send(Receive(wire).value) == wire
  {
    BinaryDigitsOfValue(wire);
  }

  /** The receiver does not insist on whole bytes: seven digits are read
      into one byte, as ceil(7 / 8) == 1. */
  lemma ShortWireAccepted()
    ensures Send("A") == "1000001"
    ensures Receive("1000001") == Ok("A")
  {
    assert Utf8.Encode("A") == [65];
    assert BigEndianValue([65]) == 65;
    assert BinaryDigits(2) == "10";
    assert BinaryDigits(4) == "100";
    assert BinaryDigits(8) == "1000";
    assert BinaryDigits(16) == "10000";
    assert BinaryDigits(32) == "100000";
    assert BinaryDigits(65) == "1000001";
    RoundTrip("A");
  }
}

=== FILE: pickle.dfy ===
/** The pickle stream pickle.dumps writes for a str under the default
    protocol 4, and the part of pickle.loads that reads such a stream back.

    A protocol-4 pickle of a string is
      PROTO 4, [FRAME <8-byte length>], <string opcode and length>, <UTF-8 bytes>, MEMOIZE, STOP
    where the frame is left out when the string's bytes alone reach the
    64 KiB frame target, and the string opcode is the shortest of
    SHORT_BINUNICODE (1-byte length), BINUNICODE (4-byte) and BINUNICODE8 (8-byte). */
module Pickle {
  import opened Bytes
  import opened Results
  import Utf8

  // Opcodes
  const Proto: byte := 0x80
  const Frame: byte := 0x95
  const ShortBinUnicode: byte := 0x8c
  const BinUnicode: byte := 0x58
  const BinUnicode8: byte := 0x8d
  const Memoize: byte := 0x94
  const Stop: byte := 0x2e

  /** pickle.DEFAULT_PROTOCOL and pickle.HIGHEST_PROTOCOL as of Python 3.12. */
  const DefaultProtocol: byte := 4
  const HighestProtocol: byte := 5

  /** Data of at least this many bytes is written outside any frame. */
  const FrameSizeTarget: nat := 0x10000

  /** The opcode announcing a string of n UTF-8 bytes, followed by n in
      little-endian form. The 8-byte field keeps only the low 64 bits. */
  function StringHeader(n: nat): (h: seq<byte>)
    ensures |h| == (if n <= 0xff then 2 else if n <= 0xffff_ffff then 5 else 9)
    ensures h[0] in {ShortBinUnicode, BinUnicode, BinUnicode8}
  {
    if n <= 0xff then [ShortBinUnicode, n]
    else if n <= 0xffff_ffff then [BinUnicode] + LittleEndian(n, 4)
    else [BinUnicode8] + LittleEndian(n, 8)
  }

  /** pickle.dumps(s) for a str s. */
  function Dumps(s: string): (bs: seq<byte>)
    ensures |bs| >= |Utf8.Encode(s)| + 6
    ensures bs[0] == Proto && bs[1] == DefaultProtocol && bs[|bs| - 1] == Stop
    ensures bs[2] == Frame <==> |Utf8.Encode(s)| < FrameSizeTarget
  {
    var data := Utf8.Encode(s);
    var body := StringHeader(|data|) + data + [Memoize, Stop];
    [Proto, DefaultProtocol] + (if |data| < FrameSizeTarget then InFrame(body) else body)
  }

  /** FRAME and its 8-byte length in front of the bytes it frames. */
  function InFrame(body: seq<byte>): (bs: seq<byte>)
    ensures |bs| == |body| + 9 && bs[0] == Frame
  {
    [Frame] + LittleEndian(|body|, 8) + body
  }

  /** An opcode's argument runs past the end of the data. */
  const Truncated: Error := UnpicklingError("pickle data was truncated")

  /** The data ends where the next opcode should be ("Ran out of input"). */
  const OutOfInput: Error := EOFError

  /** pickle.loads(bs) for streams that hold a single str. Anything after
      STOP is ignored, as the unpickler stops reading there. */
  function Loads(bs: seq<byte>): (r: Result<string>)
    ensures r.Ok? ==> |bs| >= 2 && bs[0] == Proto && bs[1] <= HighestProtocol
    ensures r.Ok? ==> |Utf8.Encode(r.value)| <= |bs|
  {
    if bs == [] then Err(OutOfInput)
    else if bs[0] != Proto then Err(Unsupported("pickle that does not start with PROTO"))
    else if |bs| < 2 then Err(Truncated)
    else if bs[1] > HighestProtocol then Err(ValueError("unsupported pickle protocol"))
    else LoadsFramed(bs[2..])
  }

  /** What follows the protocol header: an optional FRAME, whose length must
      not run past the end of the data, and then the string. */
  function LoadsFramed(bs: seq<byte>): (r: Result<string>)
    ensures r.Ok? ==> |Utf8.Encode(r.value)| <= |bs|
  {
    if bs != [] && bs[0] == Frame then
      if |bs| < 9 || LittleEndianValue(bs[1..9]) > |bs| - 9 then Err(Truncated)
      else LoadsString(bs[9..])
    else LoadsString(bs)
  }

  /** The length a string opcode announces and how many bytes the opcode and
      its length field occupy; an error when bs does not start with one. */
  function ReadStringHeader(bs: seq<byte>): (r: Result<(nat, nat)>)
    ensures r.Ok? ==> r.value.1 <= |bs|
  {
    if bs == [] then Err(OutOfInput)
    else if bs[0] == ShortBinUnicode then
      if |bs| < 2 then Err(Truncated) else Ok((bs[1] as nat, 2))
    else if bs[0] == BinUnicode then
      if |bs| < 5 then Err(Truncated) else Ok((LittleEndianValue(bs[1..5]), 5))
    else if bs[0] == BinUnicode8 then
      if |bs| < 9 then Err(Truncated) else Ok((LittleEndianValue(bs[1..9]), 9))
    else Err(Unsupported("pickle of something other than a str"))
  }

  /** A string opcode, its UTF-8 bytes, an optional MEMOIZE and STOP. */
  function LoadsString(bs: seq<byte>): (r: Result<string>)
    ensures r.Ok? ==> |Utf8.Encode(r.value)| <= |bs|
  {
    var header :- ReadStringHeader(bs);
    var (n, h) := header;
    if |bs| - h < n then Err(Truncated)
    else
      var text :- Utf8.Decode(bs[h..h + n]);
      Utf8.EncodeDecode(bs[h..h + n]);
      var after := bs[h + n..];
      var last := if after != [] && after[0] == Memoize then after[1..] else after;
      if last == [] then Err(OutOfInput)
      else if last[0] != Stop then Err(Unsupported("pickle of something other than a str"))
      else Ok(text)
  }

  /** The length field of the string opcode reads back as the length written,
      for any length below 2^64. */
  lemma ReadStringHeaderOf(n: nat, rest: seq<byte>)
    requires n < Pow(256, 8)
    ensures ReadStringHeader(StringHeader(n) + rest) == Ok((n, |StringHeader(n)|))
  {
    var bs := StringHeader(n) + rest;
    if n <= 0xff {
    } else if n <= 0xffff_ffff {
      assert Pow(256, 4) == 0x1_0000_0000 by { Pow256Values(); }
      assert bs[1..5] == LittleEndian(n, 4);
    } else {
      assert bs[1..9] == LittleEndian(n, 8);
    }
  }

  lemma Pow256Values()
    ensures Pow(256, 4) == 0x1_0000_0000
    ensures Pow(256, 8) == 0x1_0000_0000_0000_0000
  {
    assert Pow(256, 2) == 0x1_0000;
    assert Pow(256, 4) == Pow(256, 2) * Pow(256, 2) by { PowAdd(256, 2, 2); }
    assert Pow(256, 8) == Pow(256, 4) * Pow(256, 4) by { PowAdd(256, 4, 4); }
  }

  /** The string part of the stream reads back as the string written. */
  lemma LoadsStringOf(s: string)
    requires |Utf8.Encode(s)| < Pow(256, 8)
    ensures LoadsString(StringHeader(|Utf8.Encode(s)|) + Utf8.Encode(s) + [Memoize, Stop]) == Ok(s)
  {
    var data := Utf8.Encode(s);
    var header := StringHeader(|data|);
    var h, n := |header|, |data|;
    var bs := header + data + [Memoize, Stop];
    ReadStringHeaderOf(n, data + [Memoize, Stop]);
    assert bs == header + (data + [Memoize, Stop]);
    assert bs[h..h + n] == data;
    assert bs[h + n..] == [Memoize, Stop];
    Utf8.DecodeEncode(s);
  }

  /** pickle.loads(pickle.dumps(s)) == s, for any string whose UTF-8 form is
      shorter than 2^64 bytes. */
  lemma LoadsDumps(s: string)
    requires |Utf8.Encode(s)| < Pow(256, 8)
    ensures Loads(Dumps(s)) == Ok(s)
  {
    var data := Utf8.Encode(s);
    var body := StringHeader(|data|) + data + [Memoize, Stop];
    LoadsStringOf(s);
    if |data| < FrameSizeTarget {
      LoadsHeader(InFrame(body));
      Pow256Values();
      LoadsFrame(body);
    } else {
      LoadsHeader(body);
      assert body[0] != Frame;
    }
  }

  lemma LoadsHeader(rest: seq<byte>)
    ensures Loads([Proto, DefaultProtocol] + rest) == LoadsFramed(rest)
  {
    assert ([Proto, DefaultProtocol] + rest)[2..] == rest;
  }

  /** A frame whose length field covers the rest of the data is skipped. */
  lemma LoadsFrame(body: seq<byte>)
    requires |body| < Pow(256, 8)
    ensures LoadsFramed(InFrame(body)) == LoadsString(body)
  {
    var bs := InFrame(body);
    assert bs[1..9] == LittleEndian(|body|, 8);
    assert bs[9..] == body;
  }

  /** Running out of data where an opcode belongs is an EOFError; running out
      inside an opcode's argument is the truncation error. */
  lemma LoadsShort()
    ensures Loads([]) == Err(EOFError)
    ensures Loads([Proto]) == Err(Truncated)
    ensures Loads([Proto, DefaultProtocol]) == Err(EOFError)
  {
  }
}

=== FILE: results.dfy ===
/** Outcomes of the pipeline's stages: a value, or the Python exception the
    stage would raise instead. Failure-compatible, so stages chain with `:-`. */
module Results {

  /** The exceptions the stages of webeng.py raise on input they cannot handle. */
  datatype Error =
    | JsonDecodeError(reason: string)   // json.loads: the text is not a JSON document
    | KeyError(key: string)             // a record lacks the field being read
    | TypeError                         // indexing a non-record, or feeding a non-string to a stage
    | ValueError(reason: string)        // int(s, 2) or bytes.fromhex on a malformed string
    | UnicodeDecodeError                // bytes that are not well-formed UTF-8
    | UnpicklingError(reason: string)   // pickle.loads on a malformed stream
    | EOFError                          // pickle.loads finding no opcode where one must follow
    | Unsupported(feature: string)      // input outside what this model parses; Python may accept it or reject it with its own error

  datatype Result<+T> = Ok(value: T) | Err(error: Error) {

    predicate IsFailure() {
      Err?
    }

    function PropagateFailure<U>(): Result<U>
      requires Err?
    {
      Err(error)
    }

    function Extract(): T
      requires Ok?
    {
      value
    }
  }

  datatype Option<+T> = None | Some(value: T)
}

=== FILE: utf8.dfy ===
/** UTF-8, the byte encoding of str.encode() and bytes.decode() with the
    default strict error handling: overlong forms, encoded surrogates and
    code points above U+10FFFF are rejected. */
module Utf8 {
  import opened Bytes
  import opened Results

  /** The bytes one character encodes to: the code point split into six-bit
      groups, the leading byte marking how many continuation bytes follow. */
  function EncodeChar(c: char): (bs: seq<byte>)
    ensures 1 <= |bs| <= 4
    ensures bs[0] == 0 <==> c == '\0'
    ensures |bs| == 1 <==> (c as int) < 0x80
  {
    var cp := c as int;
    var q1 := cp / 0x40;
    var q2 := q1 / 0x40;
    if cp < 0x80 then [cp]
    else if cp < 0x800 then [0xC0 + q1, 0x80 + cp % 0x40]
    else if cp < 0x10000 then [0xE0 + q2, 0x80 + q1 % 0x40, 0x80 + cp % 0x40]
    else [0xF0 + q2 / 0x40, 0x80 + q2 % 0x40, 0x80 + q1 % 0x40, 0x80 + cp % 0x40]
  }

  /** str.encode('utf-8'). */
  function Encode(s: string): (bs: seq<byte>)
    ensures |s| <= |bs| <= 4 * |s|
    ensures s != [] ==> bs != [] && (bs[0] == 0 <==> s[0] == '\0')
  {
    if s == [] then [] else EncodeChar(s[0]) + Encode(s[1..])
  }

  predicate IsContinuation(b: byte) {
    0x80 <= b < 0xC0
  }

  /** The six payload bits of a continuation byte. */
  function Low6(b: byte): int {
    b as int - 0x80
  }

  /** The first character of bs and how many bytes it occupies, or None when
      bs does not start with a well-formed UTF-8 sequence. */
  function DecodeFirst(bs: seq<byte>): (r: Option<(char, nat)>)
    requires bs != []
    ensures r.Some? ==> 1 <= r.value.1 <= |bs|
  {
    var b0 := bs[0] as int;
    if b0 < 0x80 then Some((b0 as char, 1))
    else if b0 < 0xC2 then None
    else if b0 < 0xE0 then
      if |bs| < 2 || !IsContinuation(bs[1]) then None
      else Some((((b0 - 0xC0) * 0x40 + Low6(bs[1])) as char, 2))
    else if b0 < 0xF0 then
      if |bs| < 3 || !IsContinuation(bs[1]) || !IsContinuation(bs[2]) then None
      else
        var cp := (b0 - 0xE0) * 0x1000 + Low6(bs[1]) * 0x40 + Low6(bs[2]);
        if cp < 0x800 || (0xD800 <= cp < 0xE000) then None else Some((cp as char, 3))
    else if b0 < 0xF5 then
      if |bs| < 4 || !IsContinuation(bs[1]) || !IsContinuation(bs[2]) || !IsContinuation(bs[3]) then None
      else
        var cp := (b0 - 0xF0) * 0x40000 + Low6(bs[1]) * 0x1000 + Low6(bs[2]) * 0x40 + Low6(bs[3]);
        if cp < 0x10000 || 0x110000 <= cp then None else Some((cp as char, 4))
    else None
  }

  /** bytes.decode('utf-8'). */
  function Decode(bs: seq<byte>): (r: Result<string>)
    ensures r.Ok? ==> |r.value| <= |bs|
    ensures r.Err? ==> r.error == UnicodeDecodeError
    decreases |bs|
  {
    if bs == [] then Ok([])
    else match DecodeFirst(bs)
      case None => Err(UnicodeDecodeError)
      case Some((c, n)) =>
        var rest :- Decode(bs[n..]);
        Ok([c] + rest)
  }

  lemma DivMod64(a: int, b: int)
    requires 0 <= b < 0x40
    ensures (a * 0x40 + b) / 0x40 == a && (a * 0x40 + b) % 0x40 == b
  {
  }

  /** Decoding reads back exactly the character that was encoded, whatever follows it. */
  lemma DecodeFirstEncodeChar(c: char, rest: seq<byte>)
    ensures DecodeFirst(EncodeChar(c) + rest) == Some((c, |EncodeChar(c)|))
  {
    var cp := c as int;
    var q1 := cp / 0x40;
    var q2 := q1 / 0x40;
    var bs := EncodeChar(c) + rest;
    if cp < 0x80 {
    } else if cp < 0x800 {
      assert bs[0] as int - 0xC0 == q1 && Low6(bs[1]) == cp % 0x40;
    } else if cp < 0x10000 {
      assert bs[0] as int - 0xE0 == q2 && Low6(bs[1]) == q1 % 0x40 && Low6(bs[2]) == cp % 0x40;
      assert q1 == q2 * 0x40 + q1 % 0x40;
    } else {
      assert bs[0] as int - 0xF0 == q2 / 0x40 && Low6(bs[1]) == q2 % 0x40;
      assert Low6(bs[2]) == q1 % 0x40 && Low6(bs[3]) == cp % 0x40;
      assert q2 == q2 / 0x40 * 0x40 + q2 % 0x40;
      assert q1 == q2 * 0x40 + q1 % 0x40;
    }
  }

  /** Decoding inverts encoding: bytes.decode(s.encode()) == s. */
  lemma {:induction false} DecodeEncode(s: string)
    ensures Decode(Encode(s)) == Ok(s)
  {
    if s != [] {
      var head := EncodeChar(s[0]);
      var tail := Encode(s[1..]);
      DecodeFirstEncodeChar(s[0], tail);
      assert (head + tail)[|head|..] == tail;
      DecodeEncode(s[1..]);
      assert [s[0]] + s[1..] == s;
    }
  }

  /** A well-formed sequence has only one decoding: the first character read
      re-encodes to exactly the bytes it was read from. */
  lemma EncodeCharDecodeFirst(bs: seq<byte>)
    requires bs != [] && DecodeFirst(bs).Some?
    ensures EncodeChar(DecodeFirst(bs).value.0) == bs[..DecodeFirst(bs).value.1]
  {
    var b0 := bs[0] as int;
    var c := DecodeFirst(bs).value.0;
    var cp := c as int;
    if b0 < 0x80 {
    } else if b0 < 0xE0 {
      DivMod64(b0 - 0xC0, Low6(bs[1]));
    } else if b0 < 0xF0 {
      var q1 := (b0 - 0xE0) * 0x40 + Low6(bs[1]);
      assert cp == q1 * 0x40 + Low6(bs[2]);
      DivMod64(q1, Low6(bs[2]));
      DivMod64(b0 - 0xE0, Low6(bs[1]));
    } else {
      var q2 := (b0 - 0xF0) * 0x40 + Low6(bs[1]);
      var q1 := q2 * 0x40 + Low6(bs[2]);
      assert cp == q1 * 0x40 + Low6(bs[3]);
      DivMod64(q1, Low6(bs[3]));
      DivMod64(q2, Low6(bs[2]));
      DivMod64(b0 - 0xF0, Low6(bs[1]));
    }
  }

  /** Decoding is canonical: text decoded from bs encodes back to bs. */
  lemma {:induction false} EncodeDecode(bs: seq<byte>)
    requires Decode(bs).Ok?
    ensures Encode(Decode(bs).value) == bs
    decreases |bs|
  {
    if bs != [] {
      var first := DecodeFirst(bs).value;
      var n := first.1;
      DecodeStep(bs);
      var rest := Decode(bs[n..]).value;
      EncodeCharDecodeFirst(bs);
      EncodeDecode(bs[n..]);
      EncodeJoin(bs, n, first.0, rest);
    }
  }

  /** Bytes split after the first character's encoding are the encoding of
      that character followed by the rest. */
  lemma EncodeJoin(bs: seq<byte>, n: nat, c: char, rest: string)
    requires n <= |bs| && EncodeChar(c) == bs[..n] && Encode(rest) == bs[n..]
    ensures Encode([c] + rest) == bs
  {
    EncodeCons(c, rest);
    assert bs[..n] + bs[n..] == bs;
  }

  lemma DecodeStep(bs: seq<byte>)
    requires bs != [] && Decode(bs).Ok?
    ensures DecodeFirst(bs).Some?
    ensures Decode(bs[DecodeFirst(bs).value.1..]).Ok?
    ensures Decode(bs).value == [DecodeFirst(bs).value.0] + Decode(bs[DecodeFirst(bs).value.1..]).value
  {
  }

  lemma EncodeCons(c: char, s: string)
    ensures Encode([c] + s) == EncodeChar(c) + Encode(s)
  {
    assert ([c] + s)[1..] == s;
  }
}
